=== FILE: README.md ===
# Warehouse shelf posture recognition: behaviour-event engine and UI state, in Dafny

This project models the discrete core of a warehouse-monitoring application.
A pose model reports skeletons for every video frame. The `AIWorker` turns them into two
frame-level triggers. **Reach** means a confident wrist is strictly inside a shelf region.
**Bend** means a confident shoulder–hip–knee angle is below 140 degrees. A two-state debounce
counter per trigger counts each maximal run of triggering frames once. Each count asks for one
evidence image and one report row, and a statistics snapshot is published every frame. On the
window side (`MainWindow`, `RealTimeChart`) the project models the four-click region-drawing
machine, the checkbox/settings channel, the statistics panel and the 50-point trend chart.

The model is functional: immutable records for the worker, the window and the chart, with pure
step functions folded over frames, presses and chart updates.

Modules, one file each:

- `Geometry` (`geometry.dfy`): points, pixels, Python's `int()` truncation, and the two library routines as caller-supplied functions (`Oracles`).
- `Pose` (`pose.dfy`): keypoints, 17-keypoint skeletons, detections, frames.
- `Regions` (`regions.dfy`): the left/right region store, `roi_config.json` loading and saving, and activation with conversion to pixels.
- `Triggers` (`triggers.dfy`): the reach and bend triggers of one frame.
- `Debounce` (`debounce.dfy`): the rising-edge counter, and the theorem that it counts maximal runs.
- `Evidence` (`evidence.dfy`): evidence image names and report rows, with a parser that inverts the name.
- `Worker` (`worker.dfy`): worker state, setters, the per-frame step, and a run over many frames.
- `Drawing` (`drawing.dfy`): `start_drawing` / `eventFilter` / `finish_drawing`.
- `Chart` (`chart.dfy`): `RealTimeChart`.
- `Dashboard` (`dashboard.dfy`): `start_analysis`, `stop_analysis`, checkbox toggles, `update_stats`.
- `Wrappers` (`wrappers.dfy`): an `Option` type.

Collaborators are parameters. `cv2.pointPolygonTest(poly, p, False)` and
`PoseDetector.calculate_angle` enter as the two function fields of `Geometry.Oracles`. The model
keeps only what the engine does with their results: the test must be `> 0`, so a point on an
edge is outside, and the angle must be `< 140`. The wall clock (`datetime.now()`) is a
`Timestamp` argument of the evidence functions. The pose model's output is the `Frame` value
handed to each step.

## Model

| member | source | states |
|---|---|---|
| `Geometry.Trunc` | src/ui/ai_worker.py:169-170 | `int()` on a coordinate truncates toward zero: the result is within one of the value, on the zero side |
| `Geometry.TruncTowardZero` | src/ui/ai_worker.py:155-157 | truncation keeps the sign and never increases the magnitude |
| `Regions.LoadConfig` | src/ui/ai_worker.py:60-68 | a missing or unreadable config gives two empty sides and a missing key an empty side; conversely, every non-empty loaded side is exactly the list stored under its key, and the result is empty on both sides iff the file holds no non-empty side |
| `Regions.ConfigRoundTrip` | src/ui/ai_worker.py:70-76 | loading what `save_config` wrote gives back exactly both stored sides |
| `Regions.SaveAfterLoad` | src/ui/ai_worker.py:60-76 | a file holding both keys is exactly what saving its loaded regions writes back |
| `Regions.UpdateRoi` | src/ui/ai_worker.py:113-118 | "left" replaces only the left side, "right" only the right side, and any other name changes neither |
| `Regions.UpdateThenReload` | src/ui/ai_worker.py:113-118 | after an update of a real side, the saved configuration reloads with the new points on that side |
| `Regions.ActivePolygon` | src/ui/ai_worker.py:154-157 | a side is active exactly when it has at least 3 points; then every vertex maps to `(int(nx*w), int(ny*h))`, in order |
| `Regions.ScalePointInFrame` | src/ui/ai_worker.py:155-157 | a vertex in the unit square maps to a pixel inside the frame, edges included |
| `Triggers.AnyWristHit` | src/ui/ai_worker.py:165-183 | a wrist trigger holds iff some skeleton's wrist has confidence > 0.5 and is strictly inside an active side |
| `Triggers.AnyBend` | src/ui/ai_worker.py:231-238 | `any_bend` holds iff some skeleton has keypoints 6, 12 and 14 above 0.5 confidence and an angle below 140 |
| `Triggers.Evaluate` | src/ui/ai_worker.py:151-238 | the frame's `trigger_left`, `trigger_right` and `any_bend`, each as an existential over the frame's skeletons |
| `Triggers.ReachIff` | src/ui/ai_worker.py:174-183 | reach holds iff some skeleton, on wrist 9 or 10, is confident and strictly inside the pixel polygon of an active side |
| `Triggers.NoActiveRegionNoReach` | src/ui/ai_worker.py:154-157 | with neither side having 3 points, no frame has reach |
| `Triggers.NoKeypointsNoTrigger` | src/ui/ai_worker.py:164-165 | a frame whose keypoint tensor is absent is treated as having no skeletons, and triggers neither reach nor bend |
| `Triggers.EdgeIsOutside` | src/ui/ai_worker.py:175-181 | in any frame, if every wrist of every skeleton gets polygon-test result 0 (on the edge) for each active side, there is no reach, whatever the confidences |
| `Triggers.ReachDependsOnConfidence` | src/ui/ai_worker.py:174-177 | a left wrist inside a left region covering the whole frame reaches at confidence 0.9 and not at 0.4, at the same position |
| `Triggers.BendAtAngle` | src/ui/ai_worker.py:235-237 | one skeleton with confident right shoulder, hip and knee bends at a hip angle of 120 degrees and does not bend at 150 |
| `Debounce.Step` | src/ui/ai_worker.py:218-225 | the flag follows the trigger; the count rises by exactly one iff the trigger is on and the flag was off, and is otherwise unchanged |
| `Debounce.FeedCountsRuns` | src/ui/ai_worker.py:218-225 | from an inactive counter the count grows by the number of maximal runs of true; from an active one the run in progress is not recounted |
| `Debounce.FeedEndsOnLast` | src/ui/ai_worker.py:223-225 | after a trigger sequence the flag equals the last trigger |
| `Debounce.CountFromStart` | src/ui/ai_worker.py:36-37 | from the initial state (0, inactive) the count is exactly the number of maximal runs |
| `Debounce.FeedMonotone` | src/ui/ai_worker.py:219-220 | counts never decrease and grow by at most one per frame |
| `Debounce.FeedAppend` | src/ui/ai_worker.py:218-225 | feeding two trigger sequences one after the other is feeding their concatenation, since the counter carries all the state between frames |
| `Debounce.HoldCountsOnce` | src/ui/ai_worker.py:218-225 | a trigger held for any number of frames counts once; releasing and reapplying it counts again |
| `Debounce.ExampleTwoRuns` | src/ui/ai_worker.py:218-225 | the sequence F,T,T,F,T counts two events |
| `Evidence.ImageName` | src/ui/ai_worker.py:83-85 | the image name starts with the event type and an underscore, ends in `.jpg`, and has 20 characters besides the type |
| `Evidence.DisplayTimeRoundTrip` | src/ui/ai_worker.py:82 | the report time reads back as the same year, month, day, hour, minute and second, with `-`, ` ` and `:` at positions 4, 7, 10, 13 and 16 |
| `Evidence.FileTimeRoundTrip` | src/ui/ai_worker.py:83 | the 15-character file-name stamp reads back as the same calendar reading |
| `Evidence.StampRoundTrip` | src/ui/ai_worker.py:82-83 | any strftime layout of four-digit year and two-digit fields, with fixed separators, reads back as the reading it was made from |
| `Evidence.ImageNameRoundTrip` | src/ui/ai_worker.py:83-85 | the event type and the second of capture can be read back from the image name |
| `Evidence.ImageNameCollision` | src/ui/ai_worker.py:83-89 | two images get the same name iff they have the same type and second, so a same-type event within that second reuses the name |
| `Evidence.RowMatchesImage` | src/ui/ai_worker.py:80-94 | the row written for an event and the image it names agree: the row's time and the image name both read back as the call's time, the row's type column is the event's type and is the type the image name decodes to, and the row keeps the count it was given |
| `Evidence.DigitsRoundTrip` | src/ui/ai_worker.py:83 | a zero-padded number reads back as itself when it fits the width |
| `Evidence.ParseImageName` | src/ui/ai_worker.py:85 | whatever an image name decodes to has each field within its range: year 1-9999, month 1-12, day 1-31, hour below 24, minute and second below 60 |
| `Worker.UpdateSettings` | src/ui/ai_worker.py:104-110 | each known key sets only its own flag; unknown keys change nothing |
| `Worker.NewWorker` | src/ui/ai_worker.py:20-37 | a new worker starts with both counters at 0 and inactive, the default display flags, and the regions `load_config` gives, so empty ones when the config is missing or corrupt |
| `Worker.SetRoi` | src/ui/ai_worker.py:113-118 | a region update replaces only the named side ("left" or "right"), ignores any other name, and leaves counters and display flags untouched |
| `Worker.SetSetting` | src/ui/ai_worker.py:104-110 | a settings update changes the display flags as `update_settings` does, ignores unknown keys, and leaves counters and regions untouched |
| `Worker.FrameStep` | src/ui/ai_worker.py:151-261 | one frame: the flags follow the triggers, the counts rise only on rising edges, the evidence requested for each type records exactly the counts added in this frame (reach before bend), and the snapshot holds the post-frame counts and the box count (0 when the model gives no box object) |
| `Worker.SettingsNotRead` | src/ui/ai_worker.py:205-255 | a display toggle before a frame does not change that frame's counters, evidence or snapshot |
| `Worker.EmptyFrameResets` | src/ui/ai_worker.py:217-246 | a frame without keypoints clears both flags, keeps both counts and saves nothing |
| `Worker.ProcessFrames` | src/ui/ai_worker.py:140-261 | a run keeps the regions and toggles it started with, and publishes one snapshot per frame |
| `Worker.RunStats` | src/ui/ai_worker.py:260-261 | the snapshot a run publishes for frame i holds frame i's box count and the reach and bend counts left by feeding the triggers of frames 0 to i, so the stream `update_stats` receives is exactly the per-frame counts |
| `Worker.RequestCounts` | src/ui/ai_worker.py:219-243 | a counter step's requests record the counts it added, for its own event type only |
| `Worker.RunMatchesTraces` | src/ui/ai_worker.py:217-246 | over any frames, each counter is the debounce fold of that run's triggers, and the evidence of each type records `old+1, ..., new` in order |
| `Worker.RegionUpdateTakesEffectNext` | src/ui/ai_worker.py:113-157 | a region update between frames applies from the next frame on: the counters are fed the earlier triggers under the old regions, then the later ones under the new regions |
| `Worker.CountsAreRuns` | src/ui/ai_worker.py:36-37 | from a fresh worker, each count is the number of maximal triggering runs, and the evidence of each type is `1, ..., count` |
| `Worker.LastStatsAreFinal` | src/ui/ai_worker.py:260-261 | the last snapshot of a run carries the final counts and the last frame's box count |
| `Drawing.RoundHalfEven` | src/ui/main_window.py:277 | the nearest integer, within one half, with ties going to the even neighbour |
| `Drawing.Round3` | src/ui/main_window.py:277 | `round(v, 3)` is a whole number of thousandths within 0.0005 of `v` |
| `Drawing.Round3UnitInterval` | src/ui/main_window.py:277 | rounding keeps a value of [0,1] in [0,1] |
| `Drawing.ClickPointNormalised` | src/ui/main_window.py:274-277 | a press inside the label is stored as a vertex in normalised [0,1] coordinates |
| `Drawing.StartDrawing` | src/ui/main_window.py:260-265 | without a worker nothing changes; with one, the target is the requested side and the collected points are empty |
| `Drawing.Press` | src/ui/main_window.py:271-287 | a press is recorded only while the target is truthy, and appends exactly one rounded vertex; the fourth vertex sends `(target, the 4 points)` and clears target and points; otherwise the press is passed on unchanged |
| `Drawing.PressesKeepConsistent` | src/ui/main_window.py:271-287 | over any presses, fewer than 4 points are held, none while idle, and every region sent has exactly 4 points |
| `Drawing.FourClicksSendOneRegion` | src/ui/main_window.py:260-287 | starting a drawing and clicking four times sends one message: the side and the four vertices in click order |
| `Drawing.SentRegionIsActive` | src/ui/main_window.py:283-285 | a region sent by the drawing machine is active in the worker once stored, since 4 points is at least the 3 required |
| `Chart.InitialChart` | src/ui/main_window.py:44-62 | the chart starts with two windows of 50 zeros, a y-range of exactly [-0.5, 5], and satisfies the chart invariant |
| `Chart.Max` | src/ui/main_window.py:76 | the maximum is at least every value and is one of them |
| `Chart.Push` | src/ui/main_window.py:67-68 | a bounded append adds the value at the end and drops the oldest only when the window was full |
| `Chart.UpdateChart` | src/ui/main_window.py:65-78 | after an update every plotted value is at most the upper limit; the limit is unchanged iff every plotted value was already within it, and when it grows it is exactly 2 above the largest plotted value; the invariant is preserved |
| `Chart.Clear` | src/ui/main_window.py:306-307 | clearing empties both series, keeps the y-range, and preserves the invariant |
| `Chart.PushAllIsLastN` | src/ui/main_window.py:44-46 | pushing values one by one keeps exactly the last 50 values of the history |
| `Chart.UpdateAllPushes` | src/ui/main_window.py:65-78 | successive chart updates push each series independently and never lower the upper limit |
| `Chart.WindowIsLastN` | src/ui/main_window.py:44-78 | after any updates each series is the last 50 values of its history and the upper limit has not gone down |
| `Chart.PushThenLastN` | src/ui/main_window.py:67-68 | one bounded append followed by truncating the history to 50 is truncating the whole history |
| `Dashboard.InitialWindow` | src/ui/main_window.py:125-133 | the constructed window has no worker and is not drawing, the ROI and skeleton boxes are checked and the angle box is not (as `init_dashboard_area` sets them at main_window.py lines 221-225), the last counts and the panel are 0, and the chart is in its initial state |
| `Dashboard.StartAnalysis` | src/ui/main_window.py:295-323 | starting resets the last counts to 0 and empties both series, and leaves the checkboxes, the panel, the y-range and any drawing in progress as they were; the new worker has zeroed counters, regions from the config, and display flags equal to the window's checkboxes |
| `Dashboard.StopAnalysis` | src/ui/main_window.py:325-332 | stopping drops the worker and changes nothing else: a drawing in progress, the checkboxes, the chart, the panel and the last counts stay as they were |
| `Dashboard.Toggle` | src/ui/main_window.py:227-229 | a checkbox toggle updates only that flag and nothing else in the window; a running worker receives `update_settings(key, value)`, so flags that agreed before agree afterwards; without a worker nothing is sent |
| `Dashboard.StatsDict` | src/ui/ai_worker.py:260-261 | the published dictionary has exactly the keys `worker_count`, `reach_count`, `bend_count`, each holding the matching count |
| `Dashboard.UpdateStats` | src/ui/main_window.py:341-351 | the panel shows the three values, with missing keys read as 0, and the chart receives the reach and bend counts; the drawing machine, the checkboxes and the last counts are untouched |
| `Dashboard.PublishedStatsShown` | src/ui/main_window.py:341-351 | a worker snapshot is shown unchanged and becomes the newest chart point, at or below the y-limit |
| `Dashboard.EmptySnapshotShowsZero` | src/ui/main_window.py:342-344 | an empty snapshot shows and plots zeros |

## Left out

- Video capture, end-of-stream looping, fps defaulting and frame pacing (src/ui/ai_worker.py:121-147, 263-272) are left out. They are I/O and wall-clock timing. The model starts from an already decoded frame.
- The QThread, signals and slots, and `stop()`/`wait()` are left out. They are concurrency. A region or settings update is modelled as a separate call between frames, which is how the worker observes it.
- The `PoseDetector` wrapper, YOLO inference and device choice (src/core_inference.py) are left out as a foreign model. The detector's output is the `Frame` argument.
- `calculate_angle` is floating-point numerics (norm, arccos, clip, epsilon). It is the `angle` field of `Oracles`, with no range assumed, because no property here needs one. What it returns for particular joint positions (90 degrees for a right angle, 180 for three collinear points with the hip between the others, 0 when shoulder and knee lie in the same direction from the hip) is a property of that routine and is not stated.
- `cv2.pointPolygonTest` is an OpenCV routine. It is the `polygonTest` field of `Oracles`. The model does not claim any particular inclusion algorithm, so invariance under reversed vertex order is not stated.
- Writing the image file, appending the CSV row, the CSV header, the utf-8-sig encoding, and write-failure handling (src/ui/ai_worker.py:47-58, 86-101) are left out. They are file I/O. `Evidence.EvidenceRow` gives the row that would be written.
- JSON reading and writing (src/ui/ai_worker.py:60-76) is reduced to its outcome. A file is missing, corrupt, or parsed into per-key point lists. A JSON value that is present but is not a list of pairs is not modelled.
- Log messages (`log_signal`, `log_area`) and console prints are left out. They are text output only.
- All drawing is left out: skeleton lines, REACH/BEND labels, polylines, QImage conversion, pixmap scaling, stylesheets and layout. It is rendering. So the per-wrist flags `p_trigger_L`/`p_trigger_R` and the display angle are not modelled.
- The numpy `int32` conversion of polygon vertices is not modelled. Coordinates are unbounded integers. This agrees with the source for vertices in the unit square on any frame whose size fits 32 bits (`Regions.ScalePointInFrame`). A vertex far outside the unit square could overflow `int32` in the source and does not in the model.
- `Regions.ActivePolygon`: vertex products `nx * w` are exact reals in the model, while the source multiplies binary floats. A product that lands just below a whole number in floating point truncates one pixel lower in the source; for example `0.35 * 720` is 251.99999999999997 as a float, so the source gives 251 where the model gives 252. `Regions.ScalePoint` has the same gap.
- `Drawing.Round3`: the model uses exact reals. Python's `round` works on binary floats, whose halfway cases differ from decimal ones.
- `Drawing.Press`: requires a non-zero label size while recording, because the source would divide by zero.
- `Dashboard.Toggle`: the checkbox's own visual state is Qt's. After a stop, the source keeps the old worker's signal connection. The model sends toggles only while a worker runs.
- check_env.py, generate_requirements.py, scripts/download_assets.py and setup_resources.py are environment setup and downloads. They have no logic to model.

## Notes

- Evidence images are named from the event type and the capture time to the second (`Evidence.ImageNameCollision`). Two rising edges of one type within the same second produce the same image name, so the second image replaces the first, while the report gets two rows. At the source frame rate, a wrist leaving and re-entering a region within a second is enough for this.
- The triggers are any-of over all people in the frame, as in the source. Two workers reaching at once count as one event.
- `stop_analysis` does not cancel a drawing in progress (`Dashboard.StopAnalysis`). The remaining clicks are still collected and sent.

=== FILE: chart.dfy ===
/** The trend chart (`RealTimeChart`): two series of the most recent counts
    in a window of fixed length, and a y-axis whose upper limit only grows. */
module Chart {

  /** The window length (`max_len`). */
  const MaxLen: nat := 50

  /** The lower y-limit, fixed throughout. */
  const YLow: real := -0.5

  /** The upper y-limit the chart starts with. */
  const YHighInitial: real := 5.0

  /** Extra headroom added above the largest value when the axis grows. */
  const Headroom: real := 2.0

  datatype ChartState = ChartState(reach: seq<int>, bend: seq<int>, yLow: real, yHigh: real)

  /** Both series pre-filled with `MaxLen` zeros, y-range `[-0.5, 5]`. */
  function InitialChart(): (c: ChartState)
    ensures Wellformed(c)
    ensures |c.reach| == MaxLen && |c.bend| == MaxLen
    ensures c.yLow == YLow && c.yHigh == YHighInitial
    ensures forall i :: 0 <= i < MaxLen ==> c.reach[i] == 0 && c.bend[i] == 0
  {
    ChartState(seq(MaxLen, _ => 0), seq(MaxLen, _ => 0), YLow, YHighInitial)
  }

  /** Every value of the series lies at or below `bound`. */
  predicate AllAtMost(s: seq<int>, bound: real)
  {
    forall i :: 0 <= i < |s| ==> s[i] as real <= bound
  }

  /** The chart's invariant: both series have the same length, within the
      window, every plotted value is inside the y-range's upper limit, and
      the range has not shrunk below its initial extent. */
  predicate Wellformed(c: ChartState)
  {
    && |c.reach| == |c.bend| <= MaxLen
    && AllAtMost(c.reach, c.yHigh) && AllAtMost(c.bend, c.yHigh)
    && c.yLow == YLow && c.yHigh >= YHighInitial
  }

  /** The largest value of a non-empty series. */
  function Max(s: seq<int>): (m: int)
    requires |s| > 0
    ensures forall i :: 0 <= i < |s| ==> s[i] <= m
    ensures exists i :: 0 <= i < |s| && s[i] == m
    decreases |s|
  {
    if |s| == 1 then s[0]
    else
      var rest := Max(s[1..]);
      if s[0] >= rest then s[0] else rest
  }

  /** `deque.append` on a deque bounded by `MaxLen`: add at the end and, if
      the deque was full, drop the oldest value. */
  function Push(s: seq<int>, v: int): (r: seq<int>)
    requires |s| <= MaxLen
    ensures |r| == if |s| < MaxLen then |s| + 1 else MaxLen
    ensures r[|r| - 1] == v
    ensures |s| < MaxLen ==> r[..|r| - 1] == s
    ensures |s| == MaxLen ==> r[..|r| - 1] == s[1..]
  {
    if |s| < MaxLen then s + [v] else s[1..] + [v]
  }

  /** The last `n` values of a sequence (all of it when it is shorter). */
  function LastN(s: seq<int>, n: nat): (r: seq<int>)
    ensures |r| == if |s| < n then |s| else n
  {
    if |s| <= n then s else s[|s| - n..]
  }

  /** `update_chart(new_reach, new_bend)`: append one value to each series
      and raise the upper limit to the largest plotted value plus headroom
      when that value exceeds it. */
  function UpdateChart(c: ChartState, newReach: int, newBend: int): (r: ChartState)
    requires |c.reach| <= MaxLen && |c.bend| <= MaxLen
    ensures r.reach == Push(c.reach, newReach) && r.bend == Push(c.bend, newBend)
    ensures r.yLow == c.yLow
    ensures r.yHigh >= c.yHigh
    ensures AllAtMost(r.reach, r.yHigh) && AllAtMost(r.bend, r.yHigh)
    ensures r.yHigh > c.yHigh ==>
              (exists i :: 0 <= i < |r.reach| && r.reach[i] as real + Headroom == r.yHigh)
              || (exists i :: 0 <= i < |r.bend| && r.bend[i] as real + Headroom == r.yHigh)
    ensures (AllAtMost(r.reach, c.yHigh) && AllAtMost(r.bend, c.yHigh)) <==> r.yHigh == c.yHigh
    ensures r.yHigh > c.yHigh ==> AllAtMost(r.reach, r.yHigh - Headroom) && AllAtMost(r.bend, r.yHigh - Headroom)
    ensures Wellformed(c) ==> Wellformed(r)
  {
    var reach := Push(c.reach, newReach);
    var bend := Push(c.bend, newBend);
    var maxVal := if Max(reach) >= Max(bend) then Max(reach) else Max(bend);
    var yHigh := if maxVal as real > c.yHigh then maxVal as real + Headroom else c.yHigh;
    ChartState(reach, bend, c.yLow, yHigh)
  }

  /** `start_analysis` empties both series; the y-range is left as it was. */
  function Clear(c: ChartState): (r: ChartState)
    ensures r.reach == [] && r.bend == []
    ensures r.yLow == c.yLow && r.yHigh == c.yHigh
    ensures Wellformed(c) ==> Wellformed(r)
  {
    c.(reach := [], bend := [])
  }

  /** A run of updates, one pair of values per published snapshot. */
  function UpdateAll(c: ChartState, reach: seq<int>, bend: seq<int>): (r: ChartState)
    requires |c.reach| <= MaxLen && |c.bend| <= MaxLen
    requires |reach| == |bend|
    ensures |r.reach| <= MaxLen && |r.bend| <= MaxLen
    decreases |reach|
  {
    if |reach| == 0 then c
    else UpdateAll(UpdateChart(c, reach[0], bend[0]), reach[1..], bend[1..])
  }

  /** A series after pushing each of `vs` in turn. */
  function PushAll(s: seq<int>, vs: seq<int>): (r: seq<int>)
    requires |s| <= MaxLen
    ensures |r| <= MaxLen
    decreases |vs|
  {
    if |vs| == 0 then s else PushAll(Push(s, vs[0]), vs[1..])
  }

  /** Pushing values one at a time keeps the last `MaxLen` values of the history. */
  lemma {:induction false} PushAllIsLastN(s: seq<int>, vs: seq<int>)
    requires |s| <= MaxLen
    ensures PushAll(s, vs) == LastN(s + vs, MaxLen)
    decreases |vs|
  {
    if |vs| == 0 {
      assert s + vs == s;
    } else {
      PushAllIsLastN(Push(s, vs[0]), vs[1..]);
      PushThenLastN(s, vs[0], vs[1..]);
      assert vs == [vs[0]] + vs[1..];
    }
  }

  /** A run of chart updates pushes each series independently and never
      lowers the upper limit. */
  lemma {:induction false} UpdateAllPushes(c: ChartState, reach: seq<int>, bend: seq<int>)
    requires |c.reach| <= MaxLen && |c.bend| <= MaxLen
    requires |reach| == |bend|
    ensures UpdateAll(c, reach, bend).reach == PushAll(c.reach, reach)
    ensures UpdateAll(c, reach, bend).bend == PushAll(c.bend, bend)
    ensures UpdateAll(c, reach, bend).yHigh >= c.yHigh
    decreases |reach|
  {
    if |reach| > 0 {
      UpdateAllPushes(UpdateChart(c, reach[0], bend[0]), reach[1..], bend[1..]);
    }
  }

  /** After any run of updates each series holds the last `MaxLen` values of
      its history, and the upper limit never went down. */
  lemma WindowIsLastN(c: ChartState, reach: seq<int>, bend: seq<int>)
    requires |c.reach| <= MaxLen && |c.bend| <= MaxLen
    requires |reach| == |bend|
    ensures UpdateAll(c, reach, bend).reach == LastN(c.reach + reach, MaxLen)
    ensures UpdateAll(c, reach, bend).bend == LastN(c.bend + bend, MaxLen)
    ensures UpdateAll(c, reach, bend).yHigh >= c.yHigh
  {
    UpdateAllPushes(c, reach, bend);
    PushAllIsLastN(c.reach, reach);
    PushAllIsLastN(c.bend, bend);
  }

  /** Pushing into the window and then keeping the last `MaxLen` of what
      follows is the same as keeping the last `MaxLen` of the whole history. */
  lemma PushThenLastN(s: seq<int>, v: int, rest: seq<int>)
    requires |s| <= MaxLen
    ensures LastN(Push(s, v) + rest, MaxLen) == LastN(s + ([v] + rest), MaxLen)
  {
  }
}

=== FILE: dashboard.dfy ===
/** The main window's non-drawing state (`MainWindow`): starting and stopping
    the analysis, the display checkboxes, and the statistics panel fed by
    the worker's snapshots. */
module Dashboard {
  import opened Wrappers
  import opened Regions
  import opened Worker
  import opened Drawing
  import opened Chart

  /** The three numbers on the statistics panel. */
  datatype Shown = Shown(workers: int, reach: int, bend: int)

  datatype Window = Window(
    draw: DrawState,
    checks: Settings,
    lastReach: int,
    lastBend: int,
    chart: ChartState,
    shown: Shown)

  /** The window as constructed: no worker, not drawing, the ROI and skeleton
      boxes checked and the angle box not, the chart at its initial state. */
  function InitialWindow(): (win: Window)
    ensures Ready(win)
    ensures win.draw == Idle && !win.draw.workerRunning
    ensures win.checks == Settings(true, true, false)
    ensures win.lastReach == 0 && win.lastBend == 0
    ensures win.chart == InitialChart() && win.shown == Shown(0, 0, 0)
  {
    Window(Idle, Settings(true, true, false), 0, 0, InitialChart(), Shown(0, 0, 0))
  }

  /** The window's invariant: the drawing machine and the chart are each consistent. */
  predicate Ready(win: Window)
  {
    Consistent(win.draw) && Wellformed(win.chart)
  }

  /** `start_analysis`: reset the last-seen counts, empty both chart series,
      create a worker from the stored configuration and send it the three
      checkbox states. */
  function StartAnalysis(win: Window, config: ConfigFile): (r: (Window, WorkerState))
    ensures r.0.lastReach == 0 && r.0.lastBend == 0
    ensures r.0.chart.reach == [] && r.0.chart.bend == []
    ensures r.0.draw.workerRunning
    ensures r.1.settings == win.checks
    ensures r.1.reach.count == 0 && r.1.bend.count == 0 && !r.1.reach.active && !r.1.bend.active
    ensures r.1.rois == LoadConfig(config)
    ensures r.0.checks == win.checks && r.0.shown == win.shown
    ensures r.0.chart.yLow == win.chart.yLow && r.0.chart.yHigh == win.chart.yHigh
    ensures r.0.draw.target == win.draw.target && r.0.draw.points == win.draw.points
    ensures r.1.settings == r.0.checks
    ensures Ready(win) ==> Ready(r.0)
  {
    var w := NewWorker(config);
    var w := SetSetting(w, "roi", win.checks.showRoi);
    var w := SetSetting(w, "skeleton", win.checks.showSkeleton);
    var w := SetSetting(w, "angles", win.checks.showAngles);
    (win.(draw := win.draw.(workerRunning := true), lastReach := 0, lastBend := 0, chart := Clear(win.chart)), w)
  }

  /** `stop_analysis`: drop the worker. A drawing in progress is not cancelled. */
  function StopAnalysis(win: Window): (r: Window)
    ensures !r.draw.workerRunning
    ensures r.draw.target == win.draw.target && r.draw.points == win.draw.points
    ensures r.checks == win.checks && r.chart == win.chart && r.shown == win.shown
    ensures r.lastReach == win.lastReach && r.lastBend == win.lastBend
    ensures Ready(win) ==> Ready(r)
  {
    win.(draw := win.draw.(workerRunning := false))
  }

  /** A checkbox toggled to `value`: the window records it and, while a worker
      runs, the worker receives `update_settings(key, value)`. */
  function Toggle(win: Window, w: WorkerState, key: string, value: bool): (r: (Window, WorkerState))
    ensures r.0.checks == UpdateSettings(win.checks, key, value)
    ensures r.0 == win.(checks := r.0.checks)
    ensures win.draw.workerRunning ==> r.1.settings == UpdateSettings(w.settings, key, value)
    ensures !win.draw.workerRunning ==> r.1 == w
    ensures r.1.reach == w.reach && r.1.bend == w.bend && r.1.rois == w.rois
    ensures win.draw.workerRunning && win.checks == w.settings ==> r.1.settings == r.0.checks
  {
    var win' := win.(checks := UpdateSettings(win.checks, key, value));
    if win.draw.workerRunning then (win', SetSetting(w, key, value)) else (win', w)
  }

  /** `data.get(key, 0)`. */
  function Lookup(data: map<string, int>, key: string): (v: int)
    ensures key in data ==> v == data[key]
    ensures key !in data ==> v == 0
  {
    if key in data then data[key] else 0
  }

  /** The dictionary the worker emits on `stats_signal`. */
  function StatsDict(s: Stats): (d: map<string, int>)
    ensures d.Keys == {"worker_count", "reach_count", "bend_count"}
    ensures d["worker_count"] == s.workerCount && d["reach_count"] == s.reachCount && d["bend_count"] == s.bendCount
  {
    map["worker_count" := s.workerCount, "reach_count" := s.reachCount, "bend_count" := s.bendCount]
  }

  /** `update_stats(data)`: show the three numbers, missing keys as 0, and
      plot the reach and bend counts. */
  function UpdateStats(win: Window, data: map<string, int>): (r: Window)
    requires |win.chart.reach| <= MaxLen && |win.chart.bend| <= MaxLen
    ensures r.shown == Shown(Lookup(data, "worker_count"), Lookup(data, "reach_count"), Lookup(data, "bend_count"))
    ensures r.chart == UpdateChart(win.chart, Lookup(data, "reach_count"), Lookup(data, "bend_count"))
    ensures r.draw == win.draw && r.checks == win.checks
    ensures r.lastReach == win.lastReach && r.lastBend == win.lastBend
    ensures Ready(win) ==> Ready(r)
  {
    var reach := Lookup(data, "reach_count");
    var bend := Lookup(data, "bend_count");
    win.(shown := Shown(Lookup(data, "worker_count"), reach, bend),
         chart := UpdateChart(win.chart, reach, bend))
  }

  /** A snapshot from the worker is shown as published, and its counts become
      the newest points of the trend lines, never above the y-limit. */
  lemma PublishedStatsShown(win: Window, s: Stats)
    requires Ready(win)
    ensures UpdateStats(win, StatsDict(s)).shown == Shown(s.workerCount, s.reachCount, s.bendCount)
    ensures Last(UpdateStats(win, StatsDict(s)).chart.reach) == s.reachCount
    ensures Last(UpdateStats(win, StatsDict(s)).chart.bend) == s.bendCount
    ensures s.reachCount as real <= UpdateStats(win, StatsDict(s)).chart.yHigh
    ensures s.bendCount as real <= UpdateStats(win, StatsDict(s)).chart.yHigh
  {
  }

  function Last(s: seq<int>): int
    requires |s| > 0
  {
    s[|s| - 1]
  }

  /** An empty snapshot shows zeros and plots zeros. */
  lemma EmptySnapshotShowsZero(win: Window)
    requires Ready(win)
    ensures UpdateStats(win, map[]).shown == Shown(0, 0, 0)
    ensures Last(UpdateStats(win, map[]).chart.reach) == 0 && Last(UpdateStats(win, map[]).chart.bend) == 0
  {
  }
}

=== FILE: debounce.dfy ===
/** The two-state debounce counter behind each event type (`counters[...]`
    together with `state_memory["is_reaching"]` / `["is_bending"]`): it counts
    rising edges of the per-frame trigger, so a run of consecutive triggering
    frames is counted once. */
module Debounce {

  /** The running count and whether the previous frame triggered. */
  datatype Counter = Counter(count: nat, active: bool)

  /** Count 0, inactive: the state the worker starts in. */
  const Initial := Counter(0, false)

  /** A rising edge: the trigger is on now and was off on the previous frame. */
  predicate Rises(c: Counter, trigger: bool)
  {
    trigger && !c.active
  }

  /** One frame: a rising edge adds one and activates; a triggering frame while
      active changes nothing; a quiet frame deactivates without touching the count. */
  function Step(c: Counter, trigger: bool): (r: Counter)
    ensures r.active == trigger
    ensures r.count == c.count || r.count == c.count + 1
    ensures r.count == c.count + 1 <==> Rises(c, trigger)
  {
    if Rises(c, trigger) then Counter(c.count + 1, true)
    else if !trigger then c.(active := false)
    else c
  }

  /** The counter after a whole trigger sequence, frame by frame. */
  function Feed(c: Counter, triggers: seq<bool>): (r: Counter)
    decreases |triggers|
  {
    if |triggers| == 0 then c else Feed(Step(c, triggers[0]), triggers[1..])
  }

  /** The sequence with its leading run of `true` removed. */
  function DropTrues(ts: seq<bool>): (r: seq<bool>)
    ensures |r| <= |ts|
    ensures r == ts[|ts| - |r|..]
    ensures r == [] || !r[0]
    decreases |ts|
  {
    if |ts| > 0 && ts[0] then DropTrues(ts[1..]) else ts
  }

  /** The number of maximal runs of `true`: skip a false, or count a run and skip it. */
  function Runs(ts: seq<bool>): nat
    decreases |ts|
  {
    if |ts| == 0 then 0
    else if !ts[0] then Runs(ts[1..])
    else 1 + Runs(DropTrues(ts))
  }

  /** The debounce contract: fed from an inactive counter the count grows by
      exactly the number of maximal runs of `true`; from an active counter the
      run already in progress is not counted again. */
  lemma {:induction false} FeedCountsRuns(c: Counter, ts: seq<bool>)
    ensures !c.active ==> Feed(c, ts).count == c.count + Runs(ts)
    ensures c.active ==> Feed(c, ts).count == c.count + Runs(DropTrues(ts))
    decreases |ts|
  {
    if |ts| > 0 {
      var c' := Step(c, ts[0]);
      assert Feed(c, ts) == Feed(c', ts[1..]);
      FeedCountsRuns(c', ts[1..]);
      if ts[0] {
        assert DropTrues(ts) == DropTrues(ts[1..]);
        assert c'.active;
        if !c.active {
          assert c'.count == c.count + 1;
          assert Runs(ts) == 1 + Runs(DropTrues(ts));
        } else {
          assert c'.count == c.count;
        }
      } else {
        assert !c'.active && c'.count == c.count;
        assert DropTrues(ts) == ts;
        assert Runs(ts) == Runs(ts[1..]);
      }
    }
  }

  /** The counter ends active exactly when the last trigger was on. */
  lemma {:induction false} FeedEndsOnLast(c: Counter, ts: seq<bool>)
    ensures Feed(c, ts).active == (if |ts| == 0 then c.active else ts[|ts| - 1])
    decreases |ts|
  {
    if |ts| > 0 {
      FeedEndsOnLast(Step(c, ts[0]), ts[1..]);
      if |ts| > 1 {
        assert ts[1..][|ts| - 2] == ts[|ts| - 1];
      }
    }
  }

  /** From the initial state the count is the number of maximal runs. */
  lemma CountFromStart(ts: seq<bool>)
    ensures Feed(Initial, ts).count == Runs(ts)
  {
    FeedCountsRuns(Initial, ts);
  }

  /** Counts never decrease, and grow by at most one per frame. */
  lemma {:induction false} FeedMonotone(c: Counter, ts: seq<bool>)
    ensures c.count <= Feed(c, ts).count <= c.count + |ts|
    decreases |ts|
  {
    if |ts| > 0 {
      FeedMonotone(Step(c, ts[0]), ts[1..]);
    }
  }

  /** Feeding two sequences one after the other is feeding their concatenation. */
  lemma {:induction false} FeedAppend(c: Counter, a: seq<bool>, b: seq<bool>)
    ensures Feed(c, a + b) == Feed(Feed(c, a), b)
    decreases |a|
  {
    if |a| > 0 {
      assert (a + b)[1..] == a[1..] + b;
      FeedAppend(Step(c, a[0]), a[1..], b);
    } else {
      assert a + b == b;
    }
  }

  /** Holding a trigger on counts once however long it lasts, and releasing
      and re-applying it counts again. */
  lemma HoldCountsOnce(n: nat)
    requires n > 0
    ensures Feed(Initial, seq(n, _ => true)).count == 1
    ensures Feed(Initial, seq(n, _ => true) + [false, true]).count == 2
  {
    var held := seq(n, _ => true);
    CountFromStart(held);
    assert DropTrues(held) == [] by {
      AllTrueDrops(held);
    }
    CountFromStart(held + [false, true]);
    assert DropTrues(held + [false, true]) == [false, true] by {
      AllTruePrefixDrops(held, [false, true]);
    }
    assert Runs([false, true]) == 1 by {
      assert [false, true][1..] == [true];
      assert DropTrues([true]) == [] by {
        assert [true][1..] == [];
      }
    }
  }

  lemma {:induction false} AllTrueDrops(ts: seq<bool>)
    requires forall i :: 0 <= i < |ts| ==> ts[i]
    ensures DropTrues(ts) == []
    decreases |ts|
  {
    if |ts| > 0 {
      AllTrueDrops(ts[1..]);
    }
  }

  lemma {:induction false} AllTruePrefixDrops(ts: seq<bool>, rest: seq<bool>)
    requires forall i :: 0 <= i < |ts| ==> ts[i]
    requires rest == [] || !rest[0]
    ensures DropTrues(ts + rest) == rest
    decreases |ts|
  {
    if |ts| > 0 {
      assert (ts + rest)[1..] == ts[1..] + rest;
      AllTruePrefixDrops(ts[1..], rest);
    } else {
      assert ts + rest == rest;
    }
  }

  /** A trigger sequence false, true, true, false, true, fed to a fresh
      counter, counts two events: one per maximal run of true. */
  lemma ExampleTwoRuns()
    ensures Feed(Initial, [false, true, true, false, true]).count == 2
  {
  }
}

=== FILE: drawing.dfy ===
/** The region-drawing capture machine of the main window (`start_drawing`,
    the mouse-press branch of `eventFilter`, `finish_drawing`): after the user
    picks a side, four clicks on the video label become that side's polygon. */
module Drawing {
  import opened Wrappers
  import opened Geometry
  import opened Regions

  /** A drawing is sent off as soon as it has this many vertices. */
  const RoiVertices: nat := 4

  /** The nearest integer to `v`, ties to the even neighbour (Python's rounding rule). */
  function RoundHalfEven(v: real): (n: int)
    ensures n as real - v <= 0.5 && v - n as real <= 0.5
    ensures (n as real - v == 0.5 || v - n as real == 0.5) ==> n % 2 == 0
  {
    var f := v.Floor;
    var frac := v - f as real;
    if frac < 0.5 then f
    else if frac > 0.5 then f + 1
    else if f % 2 == 0 then f else f + 1
  }

  /** `round(v, 3)` on exact reals: the nearest multiple of 0.001, ties to even thousandths. */
  function Round3(v: real): (r: real)
    ensures r - v <= 0.0005 && v - r <= 0.0005
    ensures (r * 1000.0).Floor as real == r * 1000.0
  {
    RoundHalfEven(v * 1000.0) as real / 1000.0
  }

  /** Rounding keeps a value of the unit interval in the unit interval. */
  lemma Round3UnitInterval(v: real)
    requires 0.0 <= v <= 1.0
    ensures 0.0 <= Round3(v) <= 1.0
  {
  }

  /** The stored vertex for a press at `(x, y)` on a label `w` by `h` pixels. */
  function ClickPoint(x: int, y: int, w: int, h: int): Point
    requires w != 0 && h != 0
  {
    Point(Round3(x as real / w as real), Round3(y as real / h as real))
  }

  /** A press inside the label yields a vertex in normalised coordinates. */
  lemma ClickPointNormalised(x: int, y: int, w: int, h: int)
    requires 0 <= x <= w && 0 <= y <= h && w > 0 && h > 0
    ensures 0.0 <= ClickPoint(x, y, w, h).x <= 1.0
    ensures 0.0 <= ClickPoint(x, y, w, h).y <= 1.0
  {
    assert x as real / w as real <= 1.0;
    assert y as real / h as real <= 1.0;
    Round3UnitInterval(x as real / w as real);
    Round3UnitInterval(y as real / h as real);
  }

  /** Whether a worker exists, the side being drawn (`drawing_target`) and
      the vertices collected so far (`temp_points`). */
  datatype DrawState = DrawState(workerRunning: bool, target: Option<string>, points: seq<Point>)

  /** The window's state before any drawing. */
  const Idle := DrawState(false, None, [])

  /** Presses are recorded only while the target is truthy: set and non-empty. */
  predicate Recording(s: DrawState)
  {
    s.target.Some? && s.target.value != ""
  }

  /** The invariant of the capture machine: fewer than four collected
      vertices, and none while not recording. */
  predicate Consistent(s: DrawState)
  {
    |s.points| < RoiVertices && (!Recording(s) ==> s.points == [])
  }

  /** `start_drawing(target)`: without a worker nothing changes (the source
      only logs an error); otherwise drawing starts over for `target`. */
  function StartDrawing(s: DrawState, target: string): (r: DrawState)
    ensures !s.workerRunning ==> r == s
    ensures s.workerRunning ==> r.target == Some(target) && r.points == [] && r.workerRunning
    ensures Consistent(s) ==> Consistent(r)
  {
    if !s.workerRunning then s
    else s.(target := Some(target), points := [])
  }

  /** A finished drawing handed to the worker's `update_roi`. */
  datatype RoiMessage = RoiMessage(side: string, points: seq<Point>)

  /** The outcome of a mouse press on the video label: the new state, the
      message sent if the press completed a drawing, and whether the press was
      consumed (`return True`) rather than passed on to the base class. */
  datatype PressResult = PressResult(state: DrawState, emitted: Option<RoiMessage>, consumed: bool)

  /** A mouse press at `(x, y)` on the `w` by `h` video label. */
  function Press(s: DrawState, x: int, y: int, w: int, h: int): (r: PressResult)
    requires Recording(s) ==> w != 0 && h != 0
    ensures !Recording(s) ==> r == PressResult(s, None, false)
    ensures Recording(s) ==> r.consumed && r.state.workerRunning == s.workerRunning
    ensures Recording(s) && |s.points| + 1 != RoiVertices ==>
              r.emitted.None? && r.state.target == s.target
              && r.state.points == s.points + [ClickPoint(x, y, w, h)]
    ensures Recording(s) && |s.points| + 1 == RoiVertices ==>
              r.emitted == Some(RoiMessage(s.target.value, s.points + [ClickPoint(x, y, w, h)]))
              && r.state.target.None? && r.state.points == []
    ensures Consistent(s) ==> Consistent(r.state)
    ensures Consistent(s) && r.emitted.Some? ==> |r.emitted.value.points| == RoiVertices
  {
    if !Recording(s) then PressResult(s, None, false)
    else
      var points := s.points + [ClickPoint(x, y, w, h)];
      if |points| == RoiVertices then FinishDrawing(s.(points := points))
      else PressResult(s.(points := points), None, true)
  }

  /** `finish_drawing`: send the collected vertices for the current side and
      return to idle. */
  function FinishDrawing(s: DrawState): (r: PressResult)
    requires s.target.Some?
    ensures r.emitted == Some(RoiMessage(s.target.value, s.points))
    ensures r.state == s.(target := None, points := [])
    ensures r.consumed
  {
    PressResult(s.(target := None, points := []), Some(RoiMessage(s.target.value, s.points)), true)
  }

  /** A press on the video label at `(x, y)` while the label is `w` by `h`. */
  datatype Click = Click(x: int, y: int, w: int, h: int)

  predicate ClickOk(c: Click)
  {
    c.w > 0 && c.h > 0
  }

  /** Feed a sequence of presses; collect the messages sent, in order. */
  function Presses(s: DrawState, clicks: seq<Click>): (r: (DrawState, seq<RoiMessage>))
    requires forall i :: 0 <= i < |clicks| ==> ClickOk(clicks[i])
    decreases |clicks|
  {
    if |clicks| == 0 then (s, [])
    else
      var c := clicks[0];
      assert ClickOk(c);
      var p := Press(s, c.x, c.y, c.w, c.h);
      var rest := Presses(p.state, clicks[1..]);
      (rest.0, (if p.emitted.Some? then [p.emitted.value] else []) + rest.1)
  }

  /** The capture invariant holds across any sequence of presses, and every
      message sent carries exactly four vertices. */
  lemma {:induction false} PressesKeepConsistent(s: DrawState, clicks: seq<Click>)
    requires Consistent(s)
    requires forall i :: 0 <= i < |clicks| ==> ClickOk(clicks[i])
    ensures Consistent(Presses(s, clicks).0)
    ensures forall m :: m in Presses(s, clicks).1 ==> |m.points| == RoiVertices
    decreases |clicks|
  {
    if |clicks| > 0 {
      var c := clicks[0];
      assert ClickOk(c);
      var p := Press(s, c.x, c.y, c.w, c.h);
      PressesKeepConsistent(p.state, clicks[1..]);
    }
  }

  /** Starting a drawing with a worker and a non-empty side name, four presses
      send exactly one message: that side and the four clicked vertices in
      click order; the machine is idle again afterwards. */
  lemma FourClicksSendOneRegion(s: DrawState, side: string, c0: Click, c1: Click, c2: Click, c3: Click)
    requires s.workerRunning && side != ""
    requires ClickOk(c0) && ClickOk(c1) && ClickOk(c2) && ClickOk(c3)
    ensures Presses(StartDrawing(s, side), [c0, c1, c2, c3]).1
            == [RoiMessage(side, [ClickPoint(c0.x, c0.y, c0.w, c0.h), ClickPoint(c1.x, c1.y, c1.w, c1.h),
                                  ClickPoint(c2.x, c2.y, c2.w, c2.h), ClickPoint(c3.x, c3.y, c3.w, c3.h)])]
    ensures !Recording(Presses(StartDrawing(s, side), [c0, c1, c2, c3]).0)
  {
    var s0 := StartDrawing(s, side);
    var p0 := ClickPoint(c0.x, c0.y, c0.w, c0.h);
    var p1 := ClickPoint(c1.x, c1.y, c1.w, c1.h);
    var p2 := ClickPoint(c2.x, c2.y, c2.w, c2.h);
    var p3 := ClickPoint(c3.x, c3.y, c3.w, c3.h);
    var s1 := Press(s0, c0.x, c0.y, c0.w, c0.h);
    assert s1.state == s0.(points := [p0]) && s1.emitted.None?;
    var s2 := Press(s1.state, c1.x, c1.y, c1.w, c1.h);
    assert s2.state == s0.(points := [p0, p1]) && s2.emitted.None?;
    var s3 := Press(s2.state, c2.x, c2.y, c2.w, c2.h);
    assert s3.state == s0.(points := [p0, p1, p2]) && s3.emitted.None?;
    assert Recording(s3.state) && |s3.state.points| + 1 == RoiVertices;
    assert s3.state.target.value == side;
    assert s3.state.points + [p3] == [p0, p1, p2, p3];
    var s4 := Press(s3.state, c3.x, c3.y, c3.w, c3.h);
    assert s4.emitted == Some(RoiMessage(side, [p0, p1, p2, p3]));
    assert Presses(s3.state, [c3]).0 == s4.state;
    assert s4.emitted.Some?;
    assert Presses(s3.state, [c3]).1 == [s4.emitted.value] + Presses(s4.state, []).1;
    assert Presses(s3.state, [c3]).1 == [RoiMessage(side, [p0, p1, p2, p3])];
    assert Presses(s2.state, [c2, c3]).1 == [RoiMessage(side, [p0, p1, p2, p3])];
    assert Presses(s1.state, [c1, c2, c3]).1 == [RoiMessage(side, [p0, p1, p2, p3])];
  }

  /** A region sent by the drawing machine activates its side in the worker:
      four vertices are at least the three the engine requires. */
  lemma SentRegionIsActive(rois: RoiPair, m: RoiMessage, width: nat, height: nat)
    requires |m.points| == RoiVertices
    requires m.side == "left" || m.side == "right"
    ensures m.side == "left" ==> ActivePolygon(UpdateRoi(rois, m.side, m.points).left, width, height).Some?
    ensures m.side == "right" ==> ActivePolygon(UpdateRoi(rois, m.side, m.points).right, width, height).Some?
  {
  }
}

=== FILE: evidence.dfy ===
/** Evidence records: the image name and the report row written for each
    counted event (`save_evidence`). The clock is a parameter: the caller
    passes the wall-clock time the source reads with `datetime.now()`. */
module Evidence {
  import opened Wrappers

  datatype EventKind = Reach | Bend

  /** The event type string written into file names and report rows. */
  function Label(k: EventKind): (s: string)
  {
    match k
    case Reach => "REACH"
    case Bend => "BEND"
  }

  /** A wall-clock reading to one-second resolution. */
  datatype Timestamp = Timestamp(year: nat, month: nat, day: nat, hour: nat, minute: nat, second: nat)

  /** The ranges a calendar reading falls in (four-digit years). */
  predicate ValidTimestamp(t: Timestamp)
  {
    && 1 <= t.year <= 9999
    && 1 <= t.month <= 12
    && 1 <= t.day <= 31
    && t.hour < 24
    && t.minute < 60
    && t.second < 60
  }

  function Pow10(n: nat): (p: nat)
    ensures p >= 1
  {
    if n == 0 then 1 else 10 * Pow10(n - 1)
  }

  predicate IsDigit(c: char)
  {
    '0' <= c <= '9'
  }

  predicate AllDigits(s: string)
  {
    forall i :: 0 <= i < |s| ==> IsDigit(s[i])
  }

  function DigitChar(d: nat): (c: char)
    requires d < 10
    ensures IsDigit(c)
    ensures c as int - '0' as int == d
  {
    ('0' as int + d) as char
  }

  /** `n` in decimal, zero-padded on the left to `width` digits (the width
      digits of strftime's `%Y`, `%m`, `%d`, `%H`, `%M`, `%S`). */
  function Digits(n: nat, width: nat): (s: string)
    ensures |s| == width
    ensures AllDigits(s)
    decreases width
  {
    if width == 0 then [] else Digits(n / 10, width - 1) + [DigitChar(n % 10)]
  }

  /** The number a run of decimal digits denotes. */
  function DigitsValue(s: string): nat
    requires AllDigits(s)
    decreases |s|
  {
    if |s| == 0 then 0
    else DigitsValue(s[..|s| - 1]) * 10 + (s[|s| - 1] as int - '0' as int)
  }

  /** Padding loses nothing when the number fits the width. */
  lemma {:induction false} DigitsRoundTrip(n: nat, width: nat)
    requires n < Pow10(width)
    ensures DigitsValue(Digits(n, width)) == n
    decreases width
  {
    if width > 0 {
      var s := Digits(n, width);
      assert s[..width - 1] == Digits(n / 10, width - 1);
      assert n / 10 < Pow10(width - 1);
      DigitsRoundTrip(n / 10, width - 1);
      assert s[width - 1] == DigitChar(n % 10);
    }
  }

  /** Three numbers with `sep` between them: the first `width` digits wide,
      the other two two digits wide (`%Y%m%d`, `%Y-%m-%d`, `%H:%M:%S`). */
  function Triple(a: nat, width: nat, b: nat, c: nat, sep: string): (s: string)
    ensures |s| == width + 4 + 2 * |sep|
  {
    Digits(a, width) + sep + Digits(b, 2) + sep + Digits(c, 2)
  }

  /** Reads back the three numbers of a string laid out like a `Triple`
      with separator `sep`; `None` when a field is not all digits or a
      separator is wrong. */
  function ParseTriple(s: string, width: nat, sep: string): (r: Option<(nat, nat, nat)>)
    ensures r.Some? ==> |s| == width + 4 + 2 * |sep|
  {
    var k := |sep|;
    if |s| == width + 4 + 2 * k
      && s[width..width + k] == sep && s[width + k + 2..width + 2 * k + 2] == sep
      && AllDigits(s[..width]) && AllDigits(s[width + k..width + k + 2]) && AllDigits(s[width + 2 * k + 2..])
    then
      Some((DigitsValue(s[..width]), DigitsValue(s[width + k..width + k + 2]), DigitsValue(s[width + 2 * k + 2..])))
    else None
  }

  lemma TripleRoundTrip(a: nat, width: nat, b: nat, c: nat, sep: string)
    requires a < Pow10(width) && b < 100 && c < 100
    ensures ParseTriple(Triple(a, width, b, c, sep), width, sep) == Some((a, b, c))
  {
    var s := Triple(a, width, b, c, sep);
    var k := |sep|;
    assert s[..width] == Digits(a, width);
    assert s[width..width + k] == sep;
    assert s[width + k..width + k + 2] == Digits(b, 2);
    assert s[width + k + 2..width + 2 * k + 2] == sep;
    assert s[width + 2 * k + 2..] == Digits(c, 2);
    assert Pow10(2) == 100;
    DigitsRoundTrip(a, width);
    DigitsRoundTrip(b, 2);
    DigitsRoundTrip(c, 2);
  }

  /** A strftime layout of date, `mid`, time: the date fields joined by
      `dateSep`, the time fields joined by `timeSep`. */
  function Stamp(t: Timestamp, dateSep: string, mid: string, timeSep: string): (s: string)
    ensures |s| == 14 + 2 * |dateSep| + |mid| + 2 * |timeSep|
  {
    Triple(t.year, 4, t.month, t.day, dateSep) + mid + Triple(t.hour, 2, t.minute, t.second, timeSep)
  }

  /** The reading made of a parsed date and a parsed time, when both parsed
      and together they form a valid reading. */
  function Combine(date: Option<(nat, nat, nat)>, time: Option<(nat, nat, nat)>): (r: Option<Timestamp>)
    ensures r.Some? ==> ValidTimestamp(r.value)
  {
    match (date, time)
    case (Some((year, month, day)), Some((hour, minute, second))) =>
      var t := Timestamp(year, month, day, hour, minute, second);
      if ValidTimestamp(t) then Some(t) else None
    case _ => None
  }

  /** Reads back the time from a string laid out like a `Stamp`. */
  function ParseStamp(s: string, dateSep: string, mid: string, timeSep: string): (r: Option<Timestamp>)
    ensures r.Some? ==> ValidTimestamp(r.value)
  {
    var n := 8 + 2 * |dateSep|;
    if |s| >= n + |mid| && s[n..n + |mid|] == mid then
      Combine(ParseTriple(s[..n], 4, dateSep), ParseTriple(s[n + |mid|..], 2, timeSep))
    else None
  }

  /** A concatenation of three strings splits back into them. */
  lemma Pieces(a: string, m: string, b: string)
    ensures (a + m + b)[..|a|] == a
    ensures (a + m + b)[|a|..|a| + |m|] == m
    ensures (a + m + b)[|a| + |m|..] == b
  {
  }

  /** A stamp's date part, middle and time part sit where `ParseStamp` looks for them. */
  lemma StampSplits(t: Timestamp, dateSep: string, mid: string, timeSep: string)
    ensures Stamp(t, dateSep, mid, timeSep)[..8 + 2 * |dateSep|] == Triple(t.year, 4, t.month, t.day, dateSep)
    ensures Stamp(t, dateSep, mid, timeSep)[8 + 2 * |dateSep|..8 + 2 * |dateSep| + |mid|] == mid
    ensures Stamp(t, dateSep, mid, timeSep)[8 + 2 * |dateSep| + |mid|..] == Triple(t.hour, 2, t.minute, t.second, timeSep)
  {
    Pieces(Triple(t.year, 4, t.month, t.day, dateSep), mid, Triple(t.hour, 2, t.minute, t.second, timeSep));
  }

  /** `ParseStamp` in terms of its parts. */
  lemma ParseStampParts(s: string, dateSep: string, mid: string, timeSep: string, date: (nat, nat, nat), time: (nat, nat, nat))
    requires |s| >= 8 + 2 * |dateSep| + |mid|
    requires s[8 + 2 * |dateSep|..8 + 2 * |dateSep| + |mid|] == mid
    requires ParseTriple(s[..8 + 2 * |dateSep|], 4, dateSep) == Some(date)
    requires ParseTriple(s[8 + 2 * |dateSep| + |mid|..], 2, timeSep) == Some(time)
    ensures ParseStamp(s, dateSep, mid, timeSep) == Combine(Some(date), Some(time))
  {
  }

  lemma StampRoundTrip(t: Timestamp, dateSep: string, mid: string, timeSep: string)
    requires ValidTimestamp(t)
    ensures ParseStamp(Stamp(t, dateSep, mid, timeSep), dateSep, mid, timeSep) == Some(t)
  {
    StampSplits(t, dateSep, mid, timeSep);
    assert Pow10(4) == 10000 && Pow10(2) == 100;
    TripleRoundTrip(t.year, 4, t.month, t.day, dateSep);
    TripleRoundTrip(t.hour, 2, t.minute, t.second, timeSep);
    ParseStampParts(Stamp(t, dateSep, mid, timeSep), dateSep, mid, timeSep,
      (t.year, t.month, t.day), (t.hour, t.minute, t.second));
  }

  /** `strftime("%Y%m%d_%H%M%S")`: fifteen characters. */
  function FileTime(t: Timestamp): (s: string)
    ensures |s| == 15
  {
    Stamp(t, "", "_", "")
  }

  function ParseFileTime(s: string): (r: Option<Timestamp>)
    ensures r.Some? ==> ValidTimestamp(r.value)
  {
    ParseStamp(s, "", "_", "")
  }

  /** `strftime("%Y-%m-%d %H:%M:%S")`, the report's human-readable time. */
  function DisplayTime(t: Timestamp): (s: string)
    ensures |s| == 19
  {
    Stamp(t, "-", " ", ":")
  }

  function ParseDisplayTime(s: string): (r: Option<Timestamp>)
    ensures r.Some? ==> ValidTimestamp(r.value)
  {
    ParseStamp(s, "-", " ", ":")
  }

  /** The file-name stamp determines the second it was taken in. */
  lemma FileTimeRoundTrip(t: Timestamp)
    requires ValidTimestamp(t)
    ensures ParseFileTime(FileTime(t)) == Some(t)
  {
    StampRoundTrip(t, "", "_", "");
  }

  /** The report time reads back as the same calendar reading, with the
      separators where `%Y-%m-%d %H:%M:%S` puts them. */
  lemma DisplayTimeRoundTrip(t: Timestamp)
    requires ValidTimestamp(t)
    ensures ParseDisplayTime(DisplayTime(t)) == Some(t)
    ensures DisplayTime(t)[4] == '-' && DisplayTime(t)[7] == '-' && DisplayTime(t)[10] == ' '
    ensures DisplayTime(t)[13] == ':' && DisplayTime(t)[16] == ':'
  {
    StampRoundTrip(t, "-", " ", ":");
    var s := DisplayTime(t);
    assert s[..10] == Triple(t.year, 4, t.month, t.day, "-");
    assert s[11..] == Triple(t.hour, 2, t.minute, t.second, ":");
  }

  /** The evidence image name `<TYPE>_<yyyymmdd_HHMMSS>.jpg`. */
  function ImageName(k: EventKind, t: Timestamp): (name: string)
    ensures |name| == |Label(k)| + 20
    ensures name[..|Label(k)| + 1] == Label(k) + "_"
    ensures name[|name| - 4..] == ".jpg"
  {
    Label(k) + "_" + FileTime(t) + ".jpg"
  }

  /** Reads back the event type and time from an evidence image name. */
  function ParseImageName(name: string): (r: Option<(EventKind, Timestamp)>)
    ensures r.Some? ==> ValidTimestamp(r.value.1)
  {
    if |name| == 25 && name[..6] == "REACH_" && name[21..] == ".jpg" then
      match ParseFileTime(name[6..21])
      case Some(t) => Some((Reach, t))
      case None => None
    else if |name| == 24 && name[..5] == "BEND_" && name[20..] == ".jpg" then
      match ParseFileTime(name[5..20])
      case Some(t) => Some((Bend, t))
      case None => None
    else None
  }

  /** The image name determines the event type and the second it was taken. */
  lemma ImageNameRoundTrip(k: EventKind, t: Timestamp)
    requires ValidTimestamp(t)
    ensures ParseImageName(ImageName(k, t)) == Some((k, t))
  {
    FileTimeRoundTrip(t);
    Pieces(Label(k) + "_", FileTime(t), ".jpg");
  }

  /** Two evidence images get the same name exactly when they have the same
      type and were taken in the same second; a second event of one type
      within the same second therefore reuses the earlier image's name. */
  lemma ImageNameCollision(k1: EventKind, t1: Timestamp, k2: EventKind, t2: Timestamp)
    requires ValidTimestamp(t1) && ValidTimestamp(t2)
    ensures ImageName(k1, t1) == ImageName(k2, t2) <==> k1 == k2 && t1 == t2
  {
    ImageNameRoundTrip(k1, t1);
    ImageNameRoundTrip(k2, t2);
  }

  /** One report row: time, event type, count, image name. */
  datatype ReportRow = ReportRow(time: string, kind: string, count: nat, image: string)

  /** The row `save_evidence(frame, type, count)` appends when called at `now`. */
  function EvidenceRow(k: EventKind, count: nat, now: Timestamp): (row: ReportRow)
  {
    ReportRow(DisplayTime(now), Label(k), count, ImageName(k, now))
  }

  /** The row and the image it names describe the same event: the row's time
      and the image name both read back as the call's time, the image name
      carries the row's type, and the row keeps the count it was given. */
  lemma RowMatchesImage(k: EventKind, count: nat, now: Timestamp)
    requires ValidTimestamp(now)
    ensures ParseImageName(EvidenceRow(k, count, now).image) == Some((k, now))
    ensures ParseDisplayTime(EvidenceRow(k, count, now).time) == Some(now)
    ensures EvidenceRow(k, count, now).image[..|EvidenceRow(k, count, now).kind|] == EvidenceRow(k, count, now).kind
    ensures EvidenceRow(k, count, now).count == count
    ensures EvidenceRow(k, count, now).kind == Label(k)
    ensures EvidenceRow(k, count, now).kind == Label(ParseImageName(EvidenceRow(k, count, now).image).value.0)
  {
    ImageNameRoundTrip(k, now);
    DisplayTimeRoundTrip(now);
    var name := ImageName(k, now);
    assert name[..|Label(k)|] == name[..|Label(k)| + 1][..|Label(k)|];
  }
}

=== FILE: geometry.dfy ===
/** Points, pixels and the two geometric routines the engine consults.

    The engine never computes geometry itself: the point-in-polygon test is
    OpenCV's `pointPolygonTest` and the joint angle is `PoseDetector.calculate_angle`.
    Both are floating-point library code, so they enter the model as functions
    supplied by the caller (`Oracles`); only the comparisons the engine applies
    to their results are modelled. */
module Geometry {

  /** A point with real coordinates: a normalised region vertex or a keypoint position. */
  datatype Point = Point(x: real, y: real)

  /** A point with integer pixel coordinates, as handed to the polygon test. */
  datatype Pixel = Pixel(x: int, y: int)

  /** Python's `int(v)` on a float: truncation toward zero. */
  function Trunc(v: real): (n: int)
    ensures 0.0 <= v ==> n as real <= v < n as real + 1.0
    ensures v < 0.0 ==> n as real - 1.0 < v <= n as real
  {
    if 0.0 <= v then v.Floor else -((-v).Floor)
  }

  /** Truncation keeps the sign and never moves away from zero. */
  lemma TruncTowardZero(v: real)
    ensures 0.0 <= v ==> 0 <= Trunc(v)
    ensures v <= 0.0 ==> Trunc(v) <= 0
    ensures Trunc(v) as real * Trunc(v) as real <= v * v
  {
  }

  /** The library routines the engine calls, supplied from outside.
      `polygonTest(poly, p)` stands for `cv2.pointPolygonTest(poly, p, False)`,
      which answers a positive number inside, zero on an edge and a negative
      number outside; `angle(a, b, c)` stands for `calculate_angle`, the angle
      in degrees at `b`. */
  datatype Oracles = Oracles(
    polygonTest: (seq<Pixel>, Pixel) -> real,
    angle: (Point, Point, Point) -> real)

  /** The engine's use of the polygon test: strictly inside, edges excluded. */
  predicate StrictlyInside(o: Oracles, poly: seq<Pixel>, p: Pixel)
  {
    o.polygonTest(poly, p) > 0.0
  }
}

=== FILE: pose.dfy ===
/** What the pose model hands to the engine for one frame. */
module Pose {
  import opened Wrappers
  import opened Geometry

  /** One joint: pixel position and the model's confidence in it. */
  datatype Keypoint = Keypoint(x: real, y: real, conf: real)

  /** Number of joints in a skeleton (the COCO keypoint layout). */
  const KeypointCount: nat := 17

  /** One detected person: exactly `KeypointCount` keypoints in anatomical order. */
  type Skeleton = s: seq<Keypoint> | |s| == KeypointCount
    witness seq(KeypointCount, _ => Keypoint(0.0, 0.0, 0.0))

  /** The detector's answer: the number of boxes (absent when the model gives
      no box object) and the keypoint tensor (absent when it gives none). */
  datatype Detections = Detections(boxes: Option<nat>, keypoints: Option<seq<Skeleton>>)

  /** A frame as the engine sees it: its pixel size and what was detected in it. */
  datatype Frame = Frame(width: nat, height: nat, detections: Detections)

  /** The skeletons the engine iterates over; none when the keypoint tensor is absent. */
  function Skeletons(d: Detections): (s: seq<Skeleton>)
    ensures d.keypoints.None? ==> s == []
    ensures d.keypoints.Some? ==> s == d.keypoints.value
  {
    d.keypoints.GetOr([])
  }

  /** `len(results.boxes) if results.boxes else 0`. */
  function WorkerCount(d: Detections): (n: nat)
    ensures d.boxes.None? ==> n == 0
    ensures d.boxes.Some? ==> n == d.boxes.value
  {
    d.boxes.GetOr(0)
  }

  /** A keypoint's position, as passed to the angle routine. */
  function Position(k: Keypoint): Point
  {
    Point(k.x, k.y)
  }

  /** A keypoint's position truncated to pixels, as passed to the polygon test. */
  function PixelOf(k: Keypoint): Pixel
  {
    Pixel(Trunc(k.x), Trunc(k.y))
  }
}

=== FILE: regions.dfy ===
/** The region store: the "left" and "right" shelf polygons in normalised
    coordinates, their persistence, and their conversion to pixel polygons. */
module Regions {
  import opened Wrappers
  import opened Geometry

  /** The two sides as they are stored, each a possibly empty vertex list. */
  datatype RoiPair = RoiPair(left: seq<Point>, right: seq<Point>)

  /** Both sides empty: the state before anything is loaded or drawn. */
  const NoRegions := RoiPair([], [])

  /** A region takes part in the trigger tests only with at least this many vertices. */
  const MinVertices: nat := 3

  /** What reading `roi_config.json` can produce. `Parsed` carries each key
      when it is present in the decoded object. */
  datatype ConfigFile =
    | Missing
    | Corrupt
    | Parsed(left: Option<seq<Point>>, right: Option<seq<Point>>)

  /** Load the stored regions: an absent or unreadable file and an absent key
      all fall back to an empty side. */
  function LoadConfig(f: ConfigFile): (r: RoiPair)
    ensures (f.Missing? || f.Corrupt?) ==> r == NoRegions
    ensures f.Parsed? && f.left.Some? ==> r.left == f.left.value
    ensures f.Parsed? && f.left.None? ==> r.left == []
    ensures f.Parsed? && f.right.Some? ==> r.right == f.right.value
    ensures f.Parsed? && f.right.None? ==> r.right == []
    ensures r.left != [] ==> f.Parsed? && f.left == Some(r.left)
    ensures r.right != [] ==> f.Parsed? && f.right == Some(r.right)
    ensures r == NoRegions <==>
      !(f.Parsed? && ((f.left.Some? && f.left.value != []) || (f.right.Some? && f.right.value != [])))
  {
    match f
    case Missing => NoRegions
    case Corrupt => NoRegions
    case Parsed(l, rt) => RoiPair(l.GetOr([]), rt.GetOr([]))
  }

  /** The record written by `save_config`: both keys, always present. */
  function SaveConfig(r: RoiPair): ConfigFile
  {
    Parsed(Some(r.left), Some(r.right))
  }

  /** Saving and loading again gives back exactly the stored regions. */
  lemma ConfigRoundTrip(r: RoiPair)
    ensures LoadConfig(SaveConfig(r)) == r
  {
  }

  /** A file holding both keys is exactly what saving its regions writes. */
  lemma SaveAfterLoad(f: ConfigFile)
    requires f.Parsed? && f.left.Some? && f.right.Some?
    ensures SaveConfig(LoadConfig(f)) == f
  {
  }

  /** `update_roi`: replace the side named "left" or "right"; any other name
      leaves both sides as they were. */
  function UpdateRoi(r: RoiPair, side: string, points: seq<Point>): (r': RoiPair)
    ensures side == "left" ==> r'.left == points && r'.right == r.right
    ensures side == "right" ==> r'.right == points && r'.left == r.left
    ensures side != "left" && side != "right" ==> r' == r
  {
    if side == "left" then r.(left := points)
    else if side == "right" then r.(right := points)
    else r
  }

  /** Updating a side and then reading the saved file back yields the update. */
  lemma UpdateThenReload(r: RoiPair, side: string, points: seq<Point>)
    requires side == "left" || side == "right"
    ensures side == "left" ==> LoadConfig(SaveConfig(UpdateRoi(r, side, points))).left == points
    ensures side == "right" ==> LoadConfig(SaveConfig(UpdateRoi(r, side, points))).right == points
  {
  }

  /** One normalised vertex mapped to pixels: `(int(nx * w), int(ny * h))`. */
  function ScalePoint(p: Point, width: nat, height: nat): Pixel
  {
    Pixel(Trunc(p.x * width as real), Trunc(p.y * height as real))
  }

  /** A vertex inside the unit square lands inside the frame, corners included. */
  lemma ScalePointInFrame(p: Point, width: nat, height: nat)
    requires 0.0 <= p.x <= 1.0 && 0.0 <= p.y <= 1.0
    ensures 0 <= ScalePoint(p, width, height).x <= width
    ensures 0 <= ScalePoint(p, width, height).y <= height
  {
    var px := p.x * width as real;
    var py := p.y * height as real;
    assert 0.0 <= px <= width as real;
    assert 0.0 <= py <= height as real;
  }

  /** The pixel polygon of one side, or `None` when the side has too few
      vertices to be active. */
  function ActivePolygon(roi: seq<Point>, width: nat, height: nat): (r: Option<seq<Pixel>>)
    ensures r.Some? <==> |roi| >= MinVertices
    ensures r.Some? ==> |r.value| == |roi|
    ensures r.Some? ==> forall i :: 0 <= i < |roi| ==> r.value[i] == ScalePoint(roi[i], width, height)
  {
    if |roi| >= MinVertices then Some(seq(|roi|, i requires 0 <= i < |roi| => ScalePoint(roi[i], width, height)))
    else None
  }
}

=== FILE: triggers.dfy ===
/** The frame-level triggers: "reach" (a confident wrist strictly inside an
    active region) and "bend" (a confident shoulder-hip-knee angle below the
    limit). Each is an any-of over every skeleton in the frame and has no
    memory of earlier frames. */
module Triggers {
  import opened Wrappers
  import opened Geometry
  import opened Pose
  import opened Regions

  const LeftWrist: nat := 9
  const RightWrist: nat := 10
  const RightShoulder: nat := 6
  const RightHip: nat := 12
  const RightKnee: nat := 14

  /** A joint is usable only when its confidence is strictly above this. */
  const MinConfidence: real := 0.5

  /** A body angle strictly below this many degrees counts as bending. */
  const BendLimit: real := 140.0

  /** The frame's two active pixel polygons (`cnt_left`, `cnt_right`). */
  datatype Polygons = Polygons(left: Option<seq<Pixel>>, right: Option<seq<Pixel>>)

  function FramePolygons(rois: RoiPair, f: Frame): (p: Polygons)
    ensures p.left == ActivePolygon(rois.left, f.width, f.height)
    ensures p.right == ActivePolygon(rois.right, f.width, f.height)
  {
    Polygons(ActivePolygon(rois.left, f.width, f.height), ActivePolygon(rois.right, f.width, f.height))
  }

  /** An inactive region never contains anything. */
  predicate InRegion(o: Oracles, region: Option<seq<Pixel>>, p: Pixel)
  {
    region.Some? && StrictlyInside(o, region.value, p)
  }

  /** A wrist keypoint that is confident and strictly inside either region. */
  predicate WristHit(o: Oracles, k: Keypoint, polys: Polygons)
  {
    k.conf > MinConfidence && (InRegion(o, polys.left, PixelOf(k)) || InRegion(o, polys.right, PixelOf(k)))
  }

  /** Does the given wrist of some skeleton hit a region? */
  function AnyWristHit(o: Oracles, skeletons: seq<Skeleton>, wrist: nat, polys: Polygons): (hit: bool)
    requires wrist < KeypointCount
    ensures hit <==> exists i :: 0 <= i < |skeletons| && WristHit(o, skeletons[i][wrist], polys)
  {
    if |skeletons| == 0 then false
    else WristHit(o, skeletons[0][wrist], polys) || AnyWristHit(o, skeletons[1..], wrist, polys)
  }

  /** One skeleton is bending: shoulder, hip and knee confident and the angle
      at the hip below the limit. */
  predicate Bending(o: Oracles, s: Skeleton)
  {
    && s[RightShoulder].conf > MinConfidence
    && s[RightHip].conf > MinConfidence
    && s[RightKnee].conf > MinConfidence
    && o.angle(Position(s[RightShoulder]), Position(s[RightHip]), Position(s[RightKnee])) < BendLimit
  }

  /** Does some skeleton bend? (`any_bend`; the source stops at the first one.) */
  function AnyBend(o: Oracles, skeletons: seq<Skeleton>): (bend: bool)
    ensures bend <==> exists i :: 0 <= i < |skeletons| && Bending(o, skeletons[i])
  {
    if |skeletons| == 0 then false
    else Bending(o, skeletons[0]) || AnyBend(o, skeletons[1..])
  }

  /** The frame's triggers: `trigger_left`, `trigger_right` (per wrist, not
      per region) and `any_bend`. */
  datatype FrameTriggers = FrameTriggers(leftWrist: bool, rightWrist: bool, bend: bool) {
    /** `frame_has_reach`. */
    predicate Reach() { leftWrist || rightWrist }
  }

  function Evaluate(o: Oracles, rois: RoiPair, f: Frame): (t: FrameTriggers)
    ensures t.leftWrist <==> exists i :: 0 <= i < |Skeletons(f.detections)|
                                 && WristHit(o, Skeletons(f.detections)[i][LeftWrist], FramePolygons(rois, f))
    ensures t.rightWrist <==> exists i :: 0 <= i < |Skeletons(f.detections)|
                                 && WristHit(o, Skeletons(f.detections)[i][RightWrist], FramePolygons(rois, f))
    ensures t.bend <==> exists i :: 0 <= i < |Skeletons(f.detections)| && Bending(o, Skeletons(f.detections)[i])
  {
    var skeletons := Skeletons(f.detections);
    var polys := FramePolygons(rois, f);
    FrameTriggers(AnyWristHit(o, skeletons, LeftWrist, polys),
                  AnyWristHit(o, skeletons, RightWrist, polys),
                  AnyBend(o, skeletons))
  }

  /** Reach, spelled out: some skeleton has a wrist (9 or 10) with confidence
      above 0.5 whose truncated position the polygon test puts strictly inside
      an active side. */
  lemma ReachIff(o: Oracles, rois: RoiPair, f: Frame)
    ensures Evaluate(o, rois, f).Reach() <==>
      exists i, w :: 0 <= i < |Skeletons(f.detections)| && (w == LeftWrist || w == RightWrist)
        && Skeletons(f.detections)[i][w].conf > MinConfidence
        && ((|rois.left| >= MinVertices
             && StrictlyInside(o, ActivePolygon(rois.left, f.width, f.height).value, PixelOf(Skeletons(f.detections)[i][w])))
         || (|rois.right| >= MinVertices
             && StrictlyInside(o, ActivePolygon(rois.right, f.width, f.height).value, PixelOf(Skeletons(f.detections)[i][w]))))
  {
  }

  /** With neither side active, no frame has reach, whatever the skeletons. */
  lemma NoActiveRegionNoReach(o: Oracles, rois: RoiPair, f: Frame)
    requires |rois.left| < MinVertices && |rois.right| < MinVertices
    ensures !Evaluate(o, rois, f).Reach()
  {
  }

  /** A frame without keypoints triggers nothing. */
  lemma NoKeypointsNoTrigger(o: Oracles, rois: RoiPair, f: Frame)
    requires f.detections.keypoints.None?
    ensures Evaluate(o, rois, f) == FrameTriggers(false, false, false)
  {
  }

  /** A wrist the polygon test puts on the edge of every active polygon
      (test result zero, which the strict `> 0` check treats as outside). */
  predicate OnEveryEdge(o: Oracles, polys: Polygons, k: Keypoint)
  {
    && (polys.left.Some? ==> o.polygonTest(polys.left.value, PixelOf(k)) == 0.0)
    && (polys.right.Some? ==> o.polygonTest(polys.right.value, PixelOf(k)) == 0.0)
  }

  /** Wrists on polygon edges do not reach: in any frame where every wrist of
      every skeleton lies on the edge of each active polygon, there is no
      reach, however confident the wrists are. */
  lemma EdgeIsOutside(o: Oracles, rois: RoiPair, f: Frame)
    requires forall i :: 0 <= i < |Skeletons(f.detections)| ==>
      OnEveryEdge(o, FramePolygons(rois, f), Skeletons(f.detections)[i][LeftWrist])
      && OnEveryEdge(o, FramePolygons(rois, f), Skeletons(f.detections)[i][RightWrist])
    ensures !Evaluate(o, rois, f).Reach()
  {
  }

  /** Confidence gates reach: one skeleton whose left wrist lies inside a
      "left" region covering the whole frame reaches at confidence 0.9 and
      does not at 0.4, at the same coordinates. */
  lemma ReachDependsOnConfidence(o: Oracles, f: Frame, s: Skeleton, x: real, y: real)
    requires f.detections.keypoints == Some([s])
    requires s[LeftWrist] == Keypoint(x, y, 0.9)
    requires s[RightWrist].conf <= MinConfidence
    requires o.polygonTest(ActivePolygon(UnitSquare, f.width, f.height).value, PixelOf(s[LeftWrist])) > 0.0
    ensures Evaluate(o, RoiPair(UnitSquare, []), f).Reach()
    ensures !Evaluate(o, RoiPair(UnitSquare, []), f.(detections := f.detections.(keypoints :=
              Some([s[LeftWrist := Keypoint(x, y, 0.4)]])))).Reach()
  {
  }

  /** The whole frame as a normalised region. */
  const UnitSquare: seq<Point> := [Point(0.0, 0.0), Point(1.0, 0.0), Point(1.0, 1.0), Point(0.0, 1.0)]

  /** The bend threshold: a single skeleton with confident right shoulder, hip
      and knee bends when the hip angle is 120 degrees and does not when it is
      150. */
  lemma BendAtAngle(o: Oracles, rois: RoiPair, f: Frame, s: Skeleton)
    requires f.detections.keypoints == Some([s])
    requires s[RightShoulder].conf == 0.9 && s[RightHip].conf == 0.9 && s[RightKnee].conf == 0.9
    ensures o.angle(Position(s[RightShoulder]), Position(s[RightHip]), Position(s[RightKnee])) == 120.0
            ==> Evaluate(o, rois, f).bend
    ensures o.angle(Position(s[RightShoulder]), Position(s[RightHip]), Position(s[RightKnee])) == 150.0
            ==> !Evaluate(o, rois, f).bend
  {
  }
}

=== FILE: worker.dfy ===
/** The behaviour-event engine (`AIWorker`): its state, its setters, and the
    per-frame step of its run loop, folded over a sequence of frames. */
module Worker {
  import opened Wrappers
  import opened Geometry
  import opened Pose
  import opened Regions
  import opened Triggers
  import opened Debounce
  import opened Evidence

  /** The display toggles; they only affect drawing. */
  datatype Settings = Settings(showRoi: bool, showSkeleton: bool, showAngles: bool)

  const DefaultSettings := Settings(true, true, false)

  /** `update_settings(key, value)`: the flag named by `key`; unknown keys are ignored. */
  function UpdateSettings(s: Settings, key: string, value: bool): (r: Settings)
    ensures key == "roi" ==> r.showRoi == value && r.showSkeleton == s.showSkeleton && r.showAngles == s.showAngles
    ensures key == "skeleton" ==> r.showSkeleton == value && r.showRoi == s.showRoi && r.showAngles == s.showAngles
    ensures key == "angles" ==> r.showAngles == value && r.showRoi == s.showRoi && r.showSkeleton == s.showSkeleton
    ensures key != "roi" && key != "skeleton" && key != "angles" ==> r == s
  {
    if key == "roi" then s.(showRoi := value)
    else if key == "skeleton" then s.(showSkeleton := value)
    else if key == "angles" then s.(showAngles := value)
    else s
  }

  /** Everything the worker keeps between frames. */
  datatype WorkerState = WorkerState(rois: RoiPair, settings: Settings, reach: Counter, bend: Counter)

  /** A freshly constructed worker: regions from the configuration file,
      default toggles, both counters at zero and inactive. */
  function NewWorker(config: ConfigFile): (w: WorkerState)
    ensures w.reach.count == 0 && !w.reach.active
    ensures w.bend.count == 0 && !w.bend.active
    ensures (config.Missing? || config.Corrupt?) ==> w.rois == NoRegions
    ensures w.rois == LoadConfig(config) && w.settings == DefaultSettings
  {
    WorkerState(LoadConfig(config), DefaultSettings, Initial, Initial)
  }

  /** `update_roi(side, points)` on the worker. */
  function SetRoi(w: WorkerState, side: string, points: seq<Point>): (r: WorkerState)
    ensures r.reach == w.reach && r.bend == w.bend && r.settings == w.settings
    ensures r.rois == UpdateRoi(w.rois, side, points)
    ensures side == "left" ==> r.rois.left == points && r.rois.right == w.rois.right
    ensures side == "right" ==> r.rois.right == points && r.rois.left == w.rois.left
    ensures side != "left" && side != "right" ==> r == w
  {
    w.(rois := UpdateRoi(w.rois, side, points))
  }

  /** `update_settings(key, value)` on the worker. */
  function SetSetting(w: WorkerState, key: string, value: bool): (r: WorkerState)
    ensures r.reach == w.reach && r.bend == w.bend && r.rois == w.rois
    ensures r.settings == UpdateSettings(w.settings, key, value)
    ensures key != "roi" && key != "skeleton" && key != "angles" ==> r == w
  {
    w.(settings := UpdateSettings(w.settings, key, value))
  }

  /** A request to `save_evidence` with the event type and the count to record. */
  datatype EvidenceRequest = EvidenceRequest(kind: EventKind, count: nat)

  /** The `stats_signal` payload. */
  datatype Stats = Stats(workerCount: nat, reachCount: nat, bendCount: nat)

  datatype FrameResult = FrameResult(worker: WorkerState, evidence: seq<EvidenceRequest>, stats: Stats)

  /** The evidence a counter transition asks for: one request carrying the new
      count when the counter went up, none otherwise. */
  function Requests(k: EventKind, before: Counter, after: Counter): (rs: seq<EvidenceRequest>)
    ensures after.count > before.count ==> rs == [EvidenceRequest(k, after.count)]
    ensures after.count <= before.count ==> rs == []
  {
    if after.count > before.count then [EvidenceRequest(k, after.count)] else []
  }

  /** One pass of the run loop's body on a decoded frame: evaluate the
      triggers against the current regions, step the reach counter and then
      the bend counter, ask for evidence on each increment (reach first), and
      publish the counts as they stand after this frame. */
  function FrameStep(o: Oracles, w: WorkerState, f: Frame): (r: FrameResult)
    ensures r.worker.rois == w.rois && r.worker.settings == w.settings
    ensures r.worker.reach.active <==> Evaluate(o, w.rois, f).Reach()
    ensures r.worker.bend.active <==> Evaluate(o, w.rois, f).bend
    ensures r.worker.reach.count == w.reach.count + 1 <==> Evaluate(o, w.rois, f).Reach() && !w.reach.active
    ensures r.worker.reach.count != w.reach.count + 1 ==> r.worker.reach.count == w.reach.count
    ensures r.worker.bend.count == w.bend.count + 1 <==> Evaluate(o, w.rois, f).bend && !w.bend.active
    ensures r.worker.bend.count != w.bend.count + 1 ==> r.worker.bend.count == w.bend.count
    ensures |r.evidence| == (r.worker.reach.count - w.reach.count) + (r.worker.bend.count - w.bend.count)
    ensures forall e :: e in r.evidence ==>
              e.count == (if e.kind == Reach then r.worker.reach.count else r.worker.bend.count)
    ensures |r.evidence| == 2 ==> r.evidence[0].kind == Reach && r.evidence[1].kind == Bend
    ensures r.stats == Stats(WorkerCount(f.detections), r.worker.reach.count, r.worker.bend.count)
    ensures CountsOf(r.evidence, Reach) == Range(w.reach.count, r.worker.reach.count)
    ensures CountsOf(r.evidence, Bend) == Range(w.bend.count, r.worker.bend.count)
  {
    var t := Evaluate(o, w.rois, f);
    var reach := Step(w.reach, t.Reach());
    var bend := Step(w.bend, t.bend);
    RequestCounts(Reach, w.reach, reach, Bend);
    RequestCounts(Bend, w.bend, bend, Reach);
    CountsOfAppend(Requests(Reach, w.reach, reach), Requests(Bend, w.bend, bend), Reach);
    CountsOfAppend(Requests(Reach, w.reach, reach), Requests(Bend, w.bend, bend), Bend);
    FrameResult(w.(reach := reach, bend := bend),
                Requests(Reach, w.reach, reach) + Requests(Bend, w.bend, bend),
                Stats(WorkerCount(f.detections), reach.count, bend.count))
  }

  /** The toggles are never read by the counting logic: changing one before a
      frame gives the same counters, evidence and stats. */
  lemma SettingsNotRead(o: Oracles, w: WorkerState, f: Frame, key: string, value: bool)
    ensures FrameStep(o, SetSetting(w, key, value), f).worker == SetSetting(FrameStep(o, w, f).worker, key, value)
    ensures FrameStep(o, SetSetting(w, key, value), f).evidence == FrameStep(o, w, f).evidence
    ensures FrameStep(o, SetSetting(w, key, value), f).stats == FrameStep(o, w, f).stats
  {
  }

  /** With no keypoints both counters go inactive and keep their counts, and
      nothing is saved. */
  lemma EmptyFrameResets(o: Oracles, w: WorkerState, f: Frame)
    requires f.detections.keypoints.None?
    ensures !FrameStep(o, w, f).worker.reach.active && !FrameStep(o, w, f).worker.bend.active
    ensures FrameStep(o, w, f).worker.reach.count == w.reach.count
    ensures FrameStep(o, w, f).worker.bend.count == w.bend.count
    ensures FrameStep(o, w, f).evidence == []
  {
  }

  datatype RunResult = RunResult(worker: WorkerState, evidence: seq<EvidenceRequest>, stats: seq<Stats>)

  /** The run loop over a sequence of frames with no region or settings
      update in between. */
  function ProcessFrames(o: Oracles, w: WorkerState, frames: seq<Frame>): (r: RunResult)
    ensures r.worker.rois == w.rois && r.worker.settings == w.settings
    ensures |r.stats| == |frames|
    decreases |frames|
  {
    if |frames| == 0 then RunResult(w, [], [])
    else
      var s := FrameStep(o, w, frames[0]);
      var rest := ProcessFrames(o, s.worker, frames[1..]);
      RunResult(rest.worker, s.evidence + rest.evidence, [s.stats] + rest.stats)
  }

  /** The per-frame reach triggers of a run. */
  function ReachTrace(o: Oracles, rois: RoiPair, frames: seq<Frame>): (ts: seq<bool>)
    ensures |ts| == |frames|
  {
    seq(|frames|, i requires 0 <= i < |frames| => Evaluate(o, rois, frames[i]).Reach())
  }

  /** The per-frame bend triggers of a run. */
  function BendTrace(o: Oracles, rois: RoiPair, frames: seq<Frame>): (ts: seq<bool>)
    ensures |ts| == |frames|
  {
    seq(|frames|, i requires 0 <= i < |frames| => Evaluate(o, rois, frames[i]).bend)
  }

  /** The counts recorded by the evidence requests of one type, in order. */
  function CountsOf(ev: seq<EvidenceRequest>, k: EventKind): seq<nat>
    decreases |ev|
  {
    if |ev| == 0 then []
    else (if ev[0].kind == k then [ev[0].count] else []) + CountsOf(ev[1..], k)
  }

  /** The numbers `lo + 1, lo + 2, ..., hi`. */
  function Range(lo: nat, hi: nat): (s: seq<nat>)
    requires lo <= hi
    ensures |s| == hi - lo
    ensures forall i :: 0 <= i < |s| ==> s[i] == lo + 1 + i
  {
    seq(hi - lo, i requires 0 <= i < hi - lo => lo + 1 + i)
  }

  lemma {:induction false} CountsOfAppend(a: seq<EvidenceRequest>, b: seq<EvidenceRequest>, k: EventKind)
    ensures CountsOf(a + b, k) == CountsOf(a, k) + CountsOf(b, k)
    decreases |a|
  {
    if |a| == 0 {
      assert a + b == b;
    } else {
      var head := if a[0].kind == k then [a[0].count] else [];
      assert (a + b)[0] == a[0] && (a + b)[1..] == a[1..] + b;
      CountsOfAppend(a[1..], b, k);
      assert CountsOf(a + b, k) == head + CountsOf(a[1..] + b, k);
      assert CountsOf(a, k) == head + CountsOf(a[1..], k);
    }
  }

  lemma RangeAppend(lo: nat, mid: nat, hi: nat)
    requires lo <= mid <= hi
    ensures Range(lo, mid) + Range(mid, hi) == Range(lo, hi)
  {
  }

  /** A counter transition's requests record the counts it added, for its own
      type only. */
  lemma RequestCounts(k: EventKind, before: Counter, after: Counter, other: EventKind)
    requires after.count == before.count || after.count == before.count + 1
    requires other != k
    ensures CountsOf(Requests(k, before, after), k) == Range(before.count, after.count)
    ensures CountsOf(Requests(k, before, after), other) == []
  {
  }

  /** A run is its first frame's step followed by the run of the rest. */
  lemma ProcessFramesStep(o: Oracles, w: WorkerState, frames: seq<Frame>)
    requires |frames| > 0
    ensures ProcessFrames(o, w, frames).worker == ProcessFrames(o, FrameStep(o, w, frames[0]).worker, frames[1..]).worker
  {
  }

  /** A trace is its first frame's trigger followed by the trace of the rest. */
  lemma TracesSplit(o: Oracles, rois: RoiPair, frames: seq<Frame>)
    requires |frames| > 0
    ensures ReachTrace(o, rois, frames)[0] == Evaluate(o, rois, frames[0]).Reach()
    ensures ReachTrace(o, rois, frames)[1..] == ReachTrace(o, rois, frames[1..])
    ensures BendTrace(o, rois, frames)[0] == Evaluate(o, rois, frames[0]).bend
    ensures BendTrace(o, rois, frames)[1..] == BendTrace(o, rois, frames[1..])
  {
  }

  /** Each counter ends where feeding it the run's trigger sequence leaves it. */
  lemma {:induction false} RunFeeds(o: Oracles, w: WorkerState, frames: seq<Frame>)
    ensures ProcessFrames(o, w, frames).worker.reach == Feed(w.reach, ReachTrace(o, w.rois, frames))
    ensures ProcessFrames(o, w, frames).worker.bend == Feed(w.bend, BendTrace(o, w.rois, frames))
    decreases |frames|
  {
    if |frames| > 0 {
      var s := FrameStep(o, w, frames[0]);
      RunFeeds(o, s.worker, frames[1..]);
      ProcessFramesStep(o, w, frames);
      TracesSplit(o, w.rois, frames);
    }
  }

  /** The evidence requested for each type over a run records exactly the
      counts the counter passed through. */
  lemma {:induction false} RunCounts(o: Oracles, w: WorkerState, frames: seq<Frame>)
    ensures w.reach.count <= ProcessFrames(o, w, frames).worker.reach.count
    ensures w.bend.count <= ProcessFrames(o, w, frames).worker.bend.count
    ensures CountsOf(ProcessFrames(o, w, frames).evidence, Reach)
            == Range(w.reach.count, ProcessFrames(o, w, frames).worker.reach.count)
    ensures CountsOf(ProcessFrames(o, w, frames).evidence, Bend)
            == Range(w.bend.count, ProcessFrames(o, w, frames).worker.bend.count)
    decreases |frames|
  {
    var r := ProcessFrames(o, w, frames);
    if |frames| == 0 {
      assert r.evidence == [];
    } else {
      var s := FrameStep(o, w, frames[0]);
      var rest := ProcessFrames(o, s.worker, frames[1..]);
      RunCounts(o, s.worker, frames[1..]);
      CountsOfAppend(s.evidence, rest.evidence, Reach);
      CountsOfAppend(s.evidence, rest.evidence, Bend);
      RangeAppend(w.reach.count, s.worker.reach.count, rest.worker.reach.count);
      RangeAppend(w.bend.count, s.worker.bend.count, rest.worker.bend.count);
    }
  }

  /** The run theorem. Each counter ends where feeding it the run's trigger
      sequence leaves it, and the evidence requested for each type records
      exactly the counts `old + 1, ..., new`, in order: one request per
      increment, carrying the counter's value just after it. */
  lemma RunMatchesTraces(o: Oracles, w: WorkerState, frames: seq<Frame>)
    ensures ProcessFrames(o, w, frames).worker.reach == Feed(w.reach, ReachTrace(o, w.rois, frames))
    ensures ProcessFrames(o, w, frames).worker.bend == Feed(w.bend, BendTrace(o, w.rois, frames))
    ensures w.reach.count <= ProcessFrames(o, w, frames).worker.reach.count
    ensures w.bend.count <= ProcessFrames(o, w, frames).worker.bend.count
    ensures CountsOf(ProcessFrames(o, w, frames).evidence, Reach)
            == Range(w.reach.count, ProcessFrames(o, w, frames).worker.reach.count)
    ensures CountsOf(ProcessFrames(o, w, frames).evidence, Bend)
            == Range(w.bend.count, ProcessFrames(o, w, frames).worker.bend.count)
  {
    RunFeeds(o, w, frames);
    RunCounts(o, w, frames);
  }

  /** A region update between two batches of frames takes effect from the
      next frame on and never retroactively: the counters end as if fed the
      first batch's triggers under the old regions and then the second batch's
      triggers under the new ones, and the update itself neither counts nor
      resets anything. */
  lemma RegionUpdateTakesEffectNext(o: Oracles, w: WorkerState, before: seq<Frame>,
                                    side: string, points: seq<Point>, after: seq<Frame>)
    ensures ProcessFrames(o, SetRoi(ProcessFrames(o, w, before).worker, side, points), after).worker.reach
            == Feed(w.reach, ReachTrace(o, w.rois, before) + ReachTrace(o, UpdateRoi(w.rois, side, points), after))
    ensures ProcessFrames(o, SetRoi(ProcessFrames(o, w, before).worker, side, points), after).worker.bend
            == Feed(w.bend, BendTrace(o, w.rois, before) + BendTrace(o, UpdateRoi(w.rois, side, points), after))
  {
    var mid := SetRoi(ProcessFrames(o, w, before).worker, side, points);
    RunMatchesTraces(o, w, before);
    RunMatchesTraces(o, mid, after);
    FeedAppend(w.reach, ReachTrace(o, w.rois, before), ReachTrace(o, mid.rois, after));
    FeedAppend(w.bend, BendTrace(o, w.rois, before), BendTrace(o, mid.rois, after));
  }

  /** The de-duplication contract end to end: starting from a fresh worker,
      after any sequence of frames each count is the number of maximal runs of
      frames on which its trigger held, and the evidence for that type is
      `1, 2, ..., count`. */
  lemma CountsAreRuns(o: Oracles, config: ConfigFile, frames: seq<Frame>)
    ensures ProcessFrames(o, NewWorker(config), frames).worker.reach.count
            == Runs(ReachTrace(o, LoadConfig(config), frames))
    ensures ProcessFrames(o, NewWorker(config), frames).worker.bend.count
            == Runs(BendTrace(o, LoadConfig(config), frames))
    ensures CountsOf(ProcessFrames(o, NewWorker(config), frames).evidence, Reach)
            == Range(0, ProcessFrames(o, NewWorker(config), frames).worker.reach.count)
    ensures CountsOf(ProcessFrames(o, NewWorker(config), frames).evidence, Bend)
            == Range(0, ProcessFrames(o, NewWorker(config), frames).worker.bend.count)
  {
    var w := NewWorker(config);
    RunMatchesTraces(o, w, frames);
    CountFromStart(ReachTrace(o, w.rois, frames));
    CountFromStart(BendTrace(o, w.rois, frames));
  }

  /** A run's snapshots are its first frame's snapshot followed by the
      snapshots of the rest. */
  lemma StatsCons(o: Oracles, w: WorkerState, frames: seq<Frame>)
    requires |frames| > 0
    ensures ProcessFrames(o, w, frames).stats
            == [FrameStep(o, w, frames[0]).stats] + ProcessFrames(o, FrameStep(o, w, frames[0]).worker, frames[1..]).stats
  {
  }

  /** Feeding the triggers of frames `0..i` is stepping on frame 0 and then
      feeding the triggers of frames `1..i`. */
  lemma FeedPrefixHead(o: Oracles, w: WorkerState, frames: seq<Frame>, i: nat)
    requires i < |frames|
    ensures Feed(w.reach, ReachTrace(o, w.rois, frames[..i + 1]))
            == Feed(FrameStep(o, w, frames[0]).worker.reach, ReachTrace(o, w.rois, frames[1..][..i]))
    ensures Feed(w.bend, BendTrace(o, w.rois, frames[..i + 1]))
            == Feed(FrameStep(o, w, frames[0]).worker.bend, BendTrace(o, w.rois, frames[1..][..i]))
  {
    var prefix := frames[..i + 1];
    TracesSplit(o, w.rois, prefix);
    assert prefix[0] == frames[0];
    assert prefix[1..] == frames[1..][..i];
  }

  /** The snapshot published for frame `i` holds that frame's box count and
      the counts after feeding the triggers of frames `0..i`. */
  lemma {:induction false} StatsAt(o: Oracles, w: WorkerState, frames: seq<Frame>, i: nat)
    requires i < |frames|
    ensures ProcessFrames(o, w, frames).stats[i]
            == Stats(WorkerCount(frames[i].detections),
                     Feed(w.reach, ReachTrace(o, w.rois, frames[..i + 1])).count,
                     Feed(w.bend, BendTrace(o, w.rois, frames[..i + 1])).count)
    decreases i
  {
    var s := FrameStep(o, w, frames[0]);
    StatsCons(o, w, frames);
    FeedPrefixHead(o, w, frames, i);
    if i == 0 {
      assert frames[1..][..0] == [];
    } else {
      StatsAt(o, s.worker, frames[1..], i - 1);
      assert frames[1..][i - 1] == frames[i];
    }
  }

  /** Every snapshot of a run is the one the source publishes after that
      frame: its box count and the counts so far. */
  lemma RunStats(o: Oracles, w: WorkerState, frames: seq<Frame>)
    ensures forall i :: 0 <= i < |frames| ==>
      ProcessFrames(o, w, frames).stats[i]
        == Stats(WorkerCount(frames[i].detections),
                 Feed(w.reach, ReachTrace(o, w.rois, frames[..i + 1])).count,
                 Feed(w.bend, BendTrace(o, w.rois, frames[..i + 1])).count)
  {
    forall i | 0 <= i < |frames|
      ensures ProcessFrames(o, w, frames).stats[i]
        == Stats(WorkerCount(frames[i].detections),
                 Feed(w.reach, ReachTrace(o, w.rois, frames[..i + 1])).count,
                 Feed(w.bend, BendTrace(o, w.rois, frames[..i + 1])).count)
    {
      StatsAt(o, w, frames, i);
    }
  }

  /** The last published snapshot carries the final counts. */
  lemma {:induction false} LastStatsAreFinal(o: Oracles, w: WorkerState, frames: seq<Frame>)
    requires |frames| > 0
    ensures ProcessFrames(o, w, frames).stats[|frames| - 1].reachCount == ProcessFrames(o, w, frames).worker.reach.count
    ensures ProcessFrames(o, w, frames).stats[|frames| - 1].bendCount == ProcessFrames(o, w, frames).worker.bend.count
    ensures ProcessFrames(o, w, frames).stats[|frames| - 1].workerCount == WorkerCount(frames[|frames| - 1].detections)
    decreases |frames|
  {
    var s := FrameStep(o, w, frames[0]);
    if |frames| > 1 {
      LastStatsAreFinal(o, s.worker, frames[1..]);
      assert frames[1..][|frames| - 2] == frames[|frames| - 1];
    }
  }
}

=== FILE: wrappers.dfy ===
/** Optional values, used wherever the source works with `None` or with a
    dictionary key that may be missing. */
module Wrappers {

  datatype Option<+T> = None | Some(value: T) {

    /** The wrapped value, or `default` when there is none. */
    function GetOr(default: T): (r: T)
      ensures Some? ==> r == value
      ensures None? ==> r == default
    {
      match this
      case Some(v) => v
      case None => default
    }
  }
}
